=== FILE: README.md ===
# rbxl-to-obj: the mesh generator and scene flattener, in Dafny

rbxl-to-obj converts a Roblox place into one Wavefront OBJ file and one MTL
material file. Its core, in `src/main.rs`, has two parts. The first builds a
small triangle mesh for each kind of part: a box, a wedge, a corner wedge, a
24-segment cylinder, and a geodesic sphere subdivided twice from an
icosahedron. The second walks the instance tree in pre-order. It places every
part's mesh by the part's CFrame and shifts face indices by a running vertex
offset. It also gives each distinct colour-and-opacity key one material,
named `mat_0`, `mat_1`, … in the order the keys are first seen.

This project models that core and proves its index and counting properties:
- the sizes of the meshes;
- every face index lies in range;
- the box and wedge are closed surfaces;
- the midpoint cache of the sphere subdivision makes one vertex per edge;
- materials are deduplicated and numbered in first-seen order;
- the exported face indices resolve;
- the walk is a pre-order traversal.

Modules, one per file:

- `Numeric` (`numeric.dfy`): vectors, orientation matrices and CFrames over
  `real`, with `apply_matrix3` and `apply_cframe`. The floating-point
  routines the builders call are in `FloatLib`, a record of functions passed
  in as a parameter: square root, cosine, sine and normalisation to unit
  length.
- `Cardinality` (`cardinality.dfy`): set-size facts used by the counting
  proofs.
- `MeshBase` (`mesh.dfy`): triangles, meshes and undirected edge keys
  (`(min, max)`, as the midpoint cache uses). It defines the edge set, the
  index bounds, non-degeneracy, and "every edge shared by exactly two faces".
- `Refinement` (`refinement.dfy`): the one-to-four split of a face list
  under a midpoint assignment. It proves that a pass turns E edges and F
  faces into 2E + 3F edges and 4F faces, and that it creates no degenerate
  or repeated face.
- `Sphere` (`sphere.dfy`): the icosahedron tables, `get_midpoint` with its
  cache, one subdivision pass as a fold over the faces, `n` passes, the
  final scaling, and the closed forms for `sphere_mesh`.
- `Primitives` (`primitives.dfy`): `cube_mesh`, `wedge_mesh`,
  `corner_wedge_mesh` and `cylinder_mesh`.
- `Materials` (`materials.dfy`): the alpha byte, the `mat_N` names, and the
  material map with its counter and MTL blocks.
- `Export` (`export.dfy`): the instance tree, property defaults, shape
  dispatch, and the walk `export_instance`. The walk produces a sequence of
  OBJ lines: `usemtl`, `v` and `f`.

Three facts about the code are worth stating up front:
- **Sphere growth.** Each subdivision pass adds exactly one vertex per
  distinct undirected edge, so the sphere has 12, then 42, then 162
  vertices.
- **Alpha.** The alpha byte comes from an `as u8` cast, which truncates and
  saturates: transparency 0.5 gives 127, not 128.
- **Winding.** The box and wedge tables are not consistently wound:
  `CubeWindingInconsistent` and `WedgeWindingInconsistent` exhibit two faces
  that traverse the same directed side.

## Model

| member | source | states |
|---|---|---|
| Numeric.IdentityFixes | src/main.rs:79-82 | The default orientation, the identity matrix, leaves every vector unchanged. |
| Numeric.IdentityFrameFixes | src/main.rs:77-83 | A part with no CFrame keeps its local coordinates: the default placement is the identity. |
| Numeric.MatrixLinear | src/main.rs:168-174 | `apply_matrix3` is linear: it preserves sums and scalar multiples. |
| Numeric.MatrixCompose | src/main.rs:168-174 | Applying one matrix after another equals applying their product. |
| Numeric.UnitAxisPicksColumn | src/main.rs:168-174 | The product sends the unit axes to the matrix's columns. This shows the fields `x`, `y`, `z` are rows. |
| Numeric.QuarterTurnExample | src/main.rs:168-174 | A quarter turn about z sends the x axis to the y axis and fixes the z axis. |
| Numeric.FrameCompose | src/main.rs:176-183 | Placing by an inner CFrame and then an outer one equals placing by their composition. |
| Numeric.TranslationOnly | src/main.rs:176-183 | With the identity orientation, `apply_cframe` only translates by the position. |
| Primitives.Cube | src/main.rs:185-217 | 8 vertices and 12 faces. Every index is below 8 and every face has three distinct corners. Every vertex is a corner (±sx/2, ±sy/2, ±sz/2) of the box. For a box of non-zero extent the 8 vertices are distinct. |
| Primitives.CubeClosed | src/main.rs:201-214 | The 12 faces use exactly 18 undirected edges, each shared by exactly two faces, and no two faces share the same corners. |
| Primitives.CubeWithinBox | src/main.rs:186-199 | For a non-negative size, every vertex lies within [-s/2, s/2] on each axis. |
| Primitives.CubeWindingInconsistent | src/main.rs:202-206 | Faces (0,1,2) and (0,1,5) both traverse the directed side 0→1, so the box is not consistently wound. |
| Primitives.Wedge | src/main.rs:362-388 | 6 vertices and 8 faces with indices below 6 and three distinct corners each. The 4 base vertices lie at y = -sy/2. The 2 ridge vertices lie at y = sy/2 and z = sz/2. |
| Primitives.WedgeClosed | src/main.rs:376-385 | The 8 faces use exactly 12 undirected edges, each shared by exactly two faces, with no repeated face. |
| Primitives.WedgeWindingInconsistent | src/main.rs:377-379 | Faces (0,1,2) and (0,1,4) both traverse 0→1. |
| Primitives.CornerWedge | src/main.rs:390-392 | The corner wedge is exactly the wedge mesh: 6 vertices and 8 faces. |
| Primitives.CylinderVertices | src/main.rs:335-349 | There are 2·steps + 2 vertices. Ring pair i sits at x = -sx/2 and x = +sx/2 on the same (y, z). The two cap centres, at (∓sx/2, 0, 0), come last. |
| Primitives.CylinderFaces | src/main.rs:351-357 | There are 4·steps faces and every index is below 2·steps + 2. The `(i+1) % steps` wrap-around makes the last segment join ring 0, so with at least 2 steps no face is degenerate. |
| Primitives.SegmentFaceProper | src/main.rs:352-356 | Each of the four faces of segment i is in range, and is non-degenerate when steps ≥ 2. |
| Primitives.Cylinder | src/main.rs:327-360 | 2·steps + 2 vertices and 4·steps faces, all indices valid. With steps ≥ 2 there is no degenerate face. Where the caps sit and how the side closes are stated by CylinderCapsFlat and CylinderClosed. |
| Primitives.CylinderCapsFlat | src/main.rs:347-357 | Each segment's two cap triangles lie on their own end. Every corner of face 4i+2 is at x = -sx/2 and it fans to the low cap centre; face 4i+3 does the same at x = +sx/2. |
| Primitives.CylinderEdgeUsedBy | src/main.rs:351-357 | Each of the six edges a segment owns is used by exactly two named faces. The rung and the two spokes are shared with the previous segment, through the wrap-around for segment 0. |
| Primitives.CylinderClosed | src/main.rs:351-357 | With at least 3 steps the cylinder is closed: it has 6·steps edges, and each is shared by exactly two faces. |
| Sphere.Icosahedron | src/main.rs:228-273 | 12 normalised corners and 20 faces. Indices are below 12, faces are proper, and there are exactly 30 undirected edges. |
| Sphere.GetMidpoint | src/main.rs:279-303 | On a hit, the lookup returns the cached index and leaves the vertices unchanged. On a miss, it appends exactly one vertex, the normalised midpoint, at index `len` and caches it. Either way the key (min, max) ends up in the cache and earlier entries and vertices are kept. |
| Sphere.GetMidpointSymmetric | src/main.rs:284 | `get_midpoint(a, b)` and `get_midpoint(b, a)` give the same index, vertices and cache. |
| Sphere.GetMidpointCached | src/main.rs:285-287 | Asking again for an edge, from either end, returns the same vertex and changes nothing. |
| Sphere.SplitFace | src/main.rs:305-313 | One face adds exactly its three edges to the cache and appends its four children, in the order (a,ab,ca), (b,bc,ab), (c,ca,bc), (ab,bc,ca). |
| Sphere.SubdividePrefix | src/main.rs:305-313 | After the first k faces, the cache keys are exactly their edges. Each cached vertex is the normalised midpoint of its edge, and distinct edges get distinct new vertices. The new faces are those k faces refined. |
| Sphere.SubdivisionPass | src/main.rs:275-316 | A pass quadruples the faces. It adds exactly one vertex per distinct undirected edge and keeps the old vertices in place. Every new index is in range. |
| Sphere.PassRefines | src/main.rs:275-316 | The pass's faces are the old faces refined with an injective, fresh midpoint assignment. The vertex assigned to each edge is the normalised midpoint of its ends. |
| Sphere.PassCounts | src/main.rs:305-313 | On a proper face list, a pass turns E edges and F faces into 2E + 3F edges and 4F faces, still with no degenerate or repeated face. |
| Refinement.RefineEdgeCount | src/main.rs:309-312 | The four children of every face have 2E + 3F distinct edges in total: two halves per old edge plus three inner edges per face. |
| Refinement.RefineProper | src/main.rs:309-312 | Splitting proper faces with fresh, injective midpoints yields no degenerate and no repeated face. |
| Refinement.RefineIndexed | src/main.rs:309-312 | The children index only old vertices and cached midpoints. |
| Sphere.PassKeeps | src/main.rs:275-316 | A pass keeps a proper mesh proper. It keeps V − E + F unchanged and keeps 2E = 3F. |
| Sphere.Subdivide | src/main.rs:275-316 | After n passes, faces are multiplied by 4^n, indices stay valid and the first vertices are kept. Properness, V − E + F and 2E = 3F are preserved. |
| Sphere.StretchMesh | src/main.rs:318-322 | Scaling keeps the faces, so a well-indexed mesh stays well indexed. It multiplies each vertex axis by half the size, so a size of 2 on every axis leaves the unit mesh unchanged. |
| Sphere.StretchRoundTrip | src/main.rs:318-322 | When no axis of the size is zero, stretching again by the reciprocal factors gives back the original mesh. |
| Sphere.SphereMesh | src/main.rs:219-325 | With n subdivisions: 20·4^n faces, 10·4^n + 2 vertices and 30·4^n edges. All indices are valid and no face is degenerate or repeated. |
| Sphere.SphereCorners | src/main.rs:230-273 | Whatever n is, the first 12 vertices are the scaled, normalised icosahedron corners. |
| Sphere.SphereLevels | src/main.rs:122 | 12/20 vertices/faces at level 0, 42/80 at level 1, and 162/320 with 480 edges at level 2, the level parts use. |
| Materials.AlphaByte | src/main.rs:94 | The alpha byte is (1 − transparency)·255 truncated toward zero. It is 0 at or below 0 and 255 at or above 255. |
| Materials.AlphaMonotone | src/main.rs:94 | More transparency never gives a larger alpha byte. |
| Materials.AlphaExamples | src/main.rs:94 | Transparency 0 gives 255, 1 gives 0 and 0.5 gives 127 (truncated, not rounded). −1 gives 255 and 2 gives 0. |
| Materials.EntryValues | src/main.rs:100-108 | The `Kd` and `d` values are in [0, 1] and determine the key they were written for. |
| Materials.Decimal | src/main.rs:98 | The `{}` numeral has at least one digit and all digits. It is one digit exactly when n < 10, and has no leading zero otherwise. |
| Materials.DecimalRoundTrip | src/main.rs:98 | Reading the numeral back gives the number. |
| Materials.MatName | src/main.rs:98 | The name is `mat_` followed by the decimal numeral of the id, and the id can be read back from it. |
| Materials.MatNameInjective | src/main.rs:98 | Two ids get the same name exactly when they are equal. |
| Materials.MaterialFor | src/main.rs:96-111 | A known key returns its number and changes nothing. A new key gets `next_mat_id`, the counter advances by one, and exactly one block is appended. |
| Materials.MaterialForValid | src/main.rs:96-111 | A lookup keeps the map, counter and blocks mutually consistent. The returned number is that of the block holding the key. |
| Materials.MaterialForOrder | src/main.rs:96-111 | A lookup appends its key to the block order exactly when the key is new. |
| Materials.ValidKeysDistinct | src/main.rs:96-111 | No key is written to two blocks. |
| Materials.ValidNamesDistinct | src/main.rs:98-106 | No material name is written twice. |
| Materials.ValidSize | src/main.rs:97-99 | `next_mat_id` equals the number of keys in the map. |
| Materials.FirstSeen | src/main.rs:96-111 | The first-seen reference order has the same elements as the key sequence, without repeats. Its keys are ordered by where each first occurs in the sequence. |
| Materials.AssignAllFirstSeen | src/main.rs:96-111 | After looking up a sequence of keys, the blocks hold the distinct keys in first-seen order, block i being `mat_i`. |
| Materials.AssignAllCount | src/main.rs:97-99 | `next_mat_id` ends at the number of distinct keys looked up. |
| Export.MistypedIsMissing | src/main.rs:72-93 | A property of the wrong type reads exactly as a missing one, for Size, CFrame, Color, Transparency and Shape. |
| Export.Defaults | src/main.rs:72-94 | With no properties a part is a 1×1×1 block at the identity frame with key (255, 255, 255, 255). |
| Export.MeshFor | src/main.rs:115-131 | Part shape 0 is a 2-pass sphere (162/320), shape 2 a 24-step cylinder (50/96), and any other shape a box (8/12). WedgePart and CornerWedgePart are the wedge (6/8). Every mesh is well indexed. |
| Export.VertexLines | src/main.rs:133-136 | One `v` line per local vertex, placed by the part's CFrame. A part at the default frame writes its local coordinates unchanged. |
| Export.FaceLines | src/main.rs:138-146 | One `f` line per local face, each index shifted by the offset plus one. For a well-indexed mesh every index lies among the part's own vertices, in [offset + 1, offset + vertex count]. |
| Export.ExportIsPreOrder | src/main.rs:150-163 | The recursive walk visits exactly the pre-order list of the instance's subtree, parts or not. |
| Export.ChildrenArePreOrder | src/main.rs:153-163 | Children are exported one after the other, each with its whole subtree, in order. |
| Export.ContainerIsTransparent | src/main.rs:150-163 | A non-part writes nothing but its children are still exported. |
| Export.PlaceCounts | src/main.rs:133-148 | After a part the offset still equals the number of `v` lines written. |
| Export.PlaceResolves | src/main.rs:138-148 | After a part every `f` index lies in [1, number of vertices written before that line]. |
| Export.PlaceOrdered | src/main.rs:113-146 | After a part every `f` line still has a `usemtl` before it. |
| Export.PlaceNames | src/main.rs:96-113 | After a part the material table is consistent, and every `usemtl` names a written block. |
| Export.PlaceUsesOwnMaterial | src/main.rs:96-148 | A part's lines open with its only `usemtl`. That names the block holding the part's key. The earlier output is kept. |
| Export.PlaceConsistent | src/main.rs:113-148 | Writing a well-indexed mesh keeps the whole invariant. |
| Export.VisitAllConsistent | src/main.rs:59-166 | Visiting any list of instances keeps the invariant. |
| Export.ExportSceneConsistent | src/main.rs:59-166 | For any tree, the final offset equals the number of vertices written. Every face index lies in [1, vertices so far]. Every face follows a `usemtl` naming a written material, and the table is consistent. Which material that is comes from Export.ExportSceneUsesKeys. |
| Materials.AssignAllAppend | src/main.rs:96-111 | Looking up two key sequences in turn equals looking up their concatenation. |
| Export.VisitAllMaterials | src/main.rs:96-111 | Visiting a list looks up exactly its parts' keys, in order. |
| Export.ExportSceneMaterials | src/main.rs:96-163 | The materials are one block per distinct key of the parts in pre-order, numbered in first-seen order. `next_mat_id` ends at the number of distinct keys. |
| Export.PlaceUsesKey | src/main.rs:96-113 | A part adds exactly one `usemtl`. It names the id its key holds afterwards, and every id given before is kept. |
| Export.VisitAllUsesKeys | src/main.rs:59-166 | Visiting a list writes one `usemtl` per part, in order. Each names the id the part's key holds at the end. |
| Export.ExportSceneUsesKeys | src/main.rs:59-166 | In a whole export, the i-th `usemtl` belongs to the i-th part in pre-order. It names the block holding that part's own key. Two parts anywhere in the tree share a material exactly when their (r, g, b, alpha) keys are equal. |
| Export.PartPlaced | src/main.rs:70-163 | A part is written with its own mesh, frame and key, and then its children are exported. |
| Export.PlaceLayout | src/main.rs:113-146 | A part's `usemtl` comes right after the earlier output, followed by its vertices. Face i then appears with its indices shifted by the old offset plus one. |
| Export.DefaultPartMesh | src/main.rs:115-125 | A part with no properties gets the unit box. |
| Export.DefaultBlock | src/main.rs:59-166 | On any state, a default part adds 21 lines and 8 to the offset: a `usemtl` for the white opaque key, and a first face of `f o+1 o+2 o+3` for the old offset o. |
| Export.TwoBlocks | src/main.rs:59-166 | Two default parts share material 0. The final offset is 16. The second block's first face is `f 9 10 11`. |

## Left out

- Reading the place file, the command line, opening files and buffered writing are left out: input and output are plumbing. The output is a sequence of OBJ lines, and the MTL output is the sequence of material blocks.
- The comment and `mtllib` header lines of the OBJ file are left out; they do not depend on the scene.
- Decoding with `rbx_binary` and property lookup by `Ustr` are foreign library calls. The tree is a datatype whose property map holds typed values, plus a catch-all for other types.
- 32-bit floating point is not modelled: coordinates are exact reals, and NaN and rounding are not represented. Square root, cosine, sine and unit-length normalisation are opaque functions passed in through `FloatLib`. The constant π is `FloatLib.pi`, an unconstrained real rather than the value of `f32::consts::PI`.
- Sphere.SphereMesh: does not state that the vertices lie on the unit sphere before scaling, because that is a floating-point property of the supplied normalisation.
- Materials.AlphaByte: computes `(1 - t) * 255` exactly over reals, not in `f32`, because the model has no float rounding. NaN, which `as u8` sends to 0, is not modelled.
- The unused third argument of `sphere_mesh` is left out; it has no effect.
- `usize` and `u32` widths are left out. Counts and indices are unbounded, because the meshes are far too small to overflow.
- The text of the `Kd` and `d` lines, that is float formatting, is left out. `Diffuse` and `Dissolve` give the values written.
- A `usemtl` line carries the material number. The name written is `Materials.MatName` of that number.
- Errors from `writeln!`, `?` and `unwrap` are left out: they are output failures, not conversion logic.
- Outward winding is not stated, because the source tables do not have it (see `Primitives.CubeWindingInconsistent`).
- Primitives.Cylinder: with 1 step the side faces repeat a corner, so non-degeneracy is only stated for 2 or more steps. With 2 steps the two ring sides of the side quads coincide and are used four times, so closedness is only stated for 3 or more steps. Parts always use 24.

=== FILE: cardinality.dfy ===
/** Counting facts about finite sets used by the mesh-topology proofs. */
module Cardinality {

  /** The elements of a duplicate-free sequence number exactly its length. */
  lemma {:induction false} DistinctElements<A>(s: seq<A>)
    requires forall i, j :: 0 <= i < j < |s| ==> s[i] != s[j]
    ensures |set x | x in s| == |s|
  {
    if |s| > 0 {
      var init := s[..|s| - 1];
      DistinctElements(init);
      assert (set x | x in s) == (set x | x in init) + {s[|s| - 1]};
      assert s[|s| - 1] !in init;
    }
  }
}

=== FILE: export.dfy ===
/** The scene flattener: a pre-order walk over the instance tree that writes
    every part's mesh, placed by its CFrame, into one OBJ file and one shared
    MTL material table. */
module Export {
  import opened Numeric
  import opened MeshBase
  import opened Primitives
  import opened Sphere
  import opened Materials

  // -------------------------------------------------------------- scene

  /** An 8-bit colour. */
  datatype Rgb = Rgb(r: Byte, g: Byte, b: Byte)

  /** A property value, as far as the exporter looks at it. */
  datatype Variant =
    | Vector3Value(v: Vec3)
    | CFrameValue(cf: CFrame)
    | Color3uint8Value(c: Rgb)
    | Float32Value(f: real)
    | EnumValue(e: nat)
    | OtherValue

  /** An instance of the place: its class, its properties and its children
      in order. */
  datatype Instance = Instance(className: string, properties: map<string, Variant>, children: seq<Instance>)

  /** The part size; (1, 1, 1) when missing or not a Vector3. */
  function SizeOf(inst: Instance): Vec3 {
    if "Size" in inst.properties && inst.properties["Size"].Vector3Value? then inst.properties["Size"].v
    else Vec3(1.0, 1.0, 1.0)
  }

  /** The part placement; the identity at the origin when missing or not a
      CFrame. */
  function FrameOf(inst: Instance): CFrame {
    if "CFrame" in inst.properties && inst.properties["CFrame"].CFrameValue? then inst.properties["CFrame"].cf
    else IdentityFrame()
  }

  /** The part colour; white when missing or not a Color3uint8. */
  function ColorOf(inst: Instance): Rgb {
    if "Color" in inst.properties && inst.properties["Color"].Color3uint8Value? then inst.properties["Color"].c
    else Rgb(255, 255, 255)
  }

  /** The part transparency; 0 when missing or not a Float32. */
  function TransparencyOf(inst: Instance): real {
    if "Transparency" in inst.properties && inst.properties["Transparency"].Float32Value?
    then inst.properties["Transparency"].f
    else 0.0
  }

  /** The Part shape enum; 1 (block) when missing or not an enum. */
  function ShapeOf(inst: Instance): nat {
    if "Shape" in inst.properties && inst.properties["Shape"].EnumValue? then inst.properties["Shape"].e
    else 1
  }

  /** The material key of a part: its colour and opacity bytes. */
  function KeyOf(inst: Instance): ColorKey {
    var c := ColorOf(inst);
    ColorKey(c.r, c.g, c.b, AlphaByte(TransparencyOf(inst)))
  }

  /** True when a property holds a value of the type the exporter reads it
      as. */
  predicate WellTyped(name: string, v: Variant) {
    match name
    case "Size" => v.Vector3Value?
    case "CFrame" => v.CFrameValue?
    case "Color" => v.Color3uint8Value?
    case "Transparency" => v.Float32Value?
    case "Shape" => v.EnumValue?
    case _ => true
  }

  /** A property of the wrong type reads exactly as a missing one. */
  lemma MistypedIsMissing(inst: Instance, name: string)
    requires name in inst.properties && !WellTyped(name, inst.properties[name])
    ensures var bare := inst.(properties := inst.properties - {name});
      && SizeOf(inst) == SizeOf(bare) && FrameOf(inst) == FrameOf(bare)
      && ColorOf(inst) == ColorOf(bare) && TransparencyOf(inst) == TransparencyOf(bare)
      && ShapeOf(inst) == ShapeOf(bare)
  {
  }

  /** With no properties at all a part is a 1x1x1 white opaque block at the
      origin. */
  lemma Defaults(className: string, children: seq<Instance>)
    ensures var inst := Instance(className, map[], children);
      && SizeOf(inst) == Vec3(1.0, 1.0, 1.0)
      && FrameOf(inst) == IdentityFrame()
      && KeyOf(inst) == ColorKey(255, 255, 255, 255)
      && ShapeOf(inst) == 1
  {
    AlphaExamples();
  }

  // ----------------------------------------------------------- dispatch

  /** Only these classes produce geometry. */
  predicate IsPart(inst: Instance) {
    inst.className == "Part" || inst.className == "WedgePart" || inst.className == "CornerWedgePart"
  }

  /** The local mesh of a part: a Part by its shape (0 ball, 2 cylinder, any
      other value block), a WedgePart or CornerWedgePart by its class. */
  function MeshFor(lib: FloatLib, inst: Instance): (m: Mesh)
    requires IsPart(inst)
    ensures WellIndexed(m)
    ensures inst.className == "Part" && ShapeOf(inst) == 0 ==>
      && m == SphereMesh(lib, SizeOf(inst), 2)
      && |m.vertices| == 162 && |m.faces| == 320
    ensures inst.className == "Part" && ShapeOf(inst) == 2 ==>
      && m == Cylinder(lib, SizeOf(inst), 24)
      && |m.vertices| == 50 && |m.faces| == 96
    ensures inst.className == "Part" && ShapeOf(inst) != 0 && ShapeOf(inst) != 2 ==>
      && m == Cube(SizeOf(inst))
      && |m.vertices| == 8 && |m.faces| == 12
    ensures inst.className == "WedgePart" ==> m == Wedge(SizeOf(inst)) && |m.vertices| == 6 && |m.faces| == 8
    ensures inst.className == "CornerWedgePart" ==> m == Wedge(SizeOf(inst)) && |m.vertices| == 6 && |m.faces| == 8
  {
    var size := SizeOf(inst);
    if inst.className == "Part" then
      var shape := ShapeOf(inst);
      if shape == 0 then
        var m := SphereMesh(lib, size, 2);
        assert Pow4(2) == 16;
        m
      else if shape == 2 then Cylinder(lib, size, 24)
      else Cube(size)
    else if inst.className == "WedgePart" then Wedge(size)
    else CornerWedge(size)
  }

  // ------------------------------------------------------------- output

  /** A line of the OBJ output: `usemtl` naming material `id` (written as
      `MatName(id)`), a `v` line, or an `f` line of 1-based indices. */
  datatype ObjLine = UseMtl(id: nat) | Vertex(pos: Vec3) | Face(a: nat, b: nat, c: nat)

  /** The flattener's running state: the OBJ lines written, the vertex
      offset, and the material table with its MTL blocks. */
  datatype ExportState = ExportState(obj: seq<ObjLine>, offset: nat, materials: MaterialState)

  const Start: ExportState := ExportState([], 0, NoMaterials)

  /** The `v` lines of a part: one per local vertex, placed by its frame;
      a part at the default frame keeps its local coordinates. */
  function VertexLines(m: Mesh, cf: CFrame): (ls: seq<ObjLine>)
    ensures |ls| == |m.vertices|
    ensures forall i | 0 <= i < |ls| :: ls[i] == Vertex(ApplyCFrame(m.vertices[i], cf))
    ensures cf == IdentityFrame() ==> forall i | 0 <= i < |ls| :: ls[i] == Vertex(m.vertices[i])
  {
    var ls := seq(|m.vertices|, i requires 0 <= i < |m.vertices| => Vertex(ApplyCFrame(m.vertices[i], cf)));
    assert cf == IdentityFrame() ==> forall i | 0 <= i < |ls| :: ls[i] == Vertex(m.vertices[i]) by {
      if cf == IdentityFrame() {
        forall i | 0 <= i < |ls| ensures ls[i] == Vertex(m.vertices[i]) {
          IdentityFrameFixes(m.vertices[i]);
        }
      }
    }
    ls
  }

  /** The `f` lines of a part: its local faces shifted past the `offset`
      vertices already written, and made 1-based. For a well-indexed mesh
      every index falls among the part's own vertices, offset + 1 to
      offset + |vertices|. */
  function FaceLines(m: Mesh, offset: nat): (ls: seq<ObjLine>)
    ensures |ls| == |m.faces|
    ensures forall i | 0 <= i < |ls| ::
      ls[i] == Face(m.faces[i].a + offset + 1, m.faces[i].b + offset + 1, m.faces[i].c + offset + 1)
    ensures WellIndexed(m) ==> forall i | 0 <= i < |ls| ::
      && offset + 1 <= ls[i].a <= offset + |m.vertices|
      && offset + 1 <= ls[i].b <= offset + |m.vertices|
      && offset + 1 <= ls[i].c <= offset + |m.vertices|
  {
    var ls := seq(|m.faces|, i requires 0 <= i < |m.faces| =>
      Face(m.faces[i].a + offset + 1, m.faces[i].b + offset + 1, m.faces[i].c + offset + 1));
    assert WellIndexed(m) ==> forall i | 0 <= i < |ls| :: InRange(m.faces[i], |m.vertices|);
    ls
  }

  /** Writes one mesh placed by `cf` with material key `key`: looks the
      material up, writes `usemtl`, then the placed vertices, then the
      faces, and advances the offset by the vertex count. */
  function Place(st: ExportState, m: Mesh, cf: CFrame, key: ColorKey): ExportState {
    var a := MaterialFor(st.materials, key);
    ExportState(st.obj + [UseMtl(a.id)] + VertexLines(m, cf) + FaceLines(m, st.offset),
                st.offset + |m.vertices|, a.state)
  }

  /** Writes one part: its mesh, frame and material key. */
  function EmitPart(lib: FloatLib, inst: Instance, st: ExportState): ExportState
    requires IsPart(inst)
  {
    Place(st, MeshFor(lib, inst), FrameOf(inst), KeyOf(inst))
  }

  /** What the walk does at one instance before its children. */
  function Visit(lib: FloatLib, inst: Instance, st: ExportState): ExportState {
    if IsPart(inst) then EmitPart(lib, inst, st) else st
  }

  /** Exports an instance, then its children in order. */
  function ExportInstance(lib: FloatLib, inst: Instance, st: ExportState): ExportState
    decreases inst
  {
    ExportChildren(lib, inst.children, Visit(lib, inst, st))
  }

  function ExportChildren(lib: FloatLib, cs: seq<Instance>, st: ExportState): ExportState
    decreases cs
  {
    if cs == [] then st else ExportChildren(lib, cs[1..], ExportInstance(lib, cs[0], st))
  }

  /** Exports the children of the data model's root, from an empty state. */
  function ExportScene(lib: FloatLib, roots: seq<Instance>): ExportState {
    ExportChildren(lib, roots, Start)
  }

  // ------------------------------------------------- pre-order reference

  /** An instance followed by its descendants, depth first, children in
      order. */
  function PreOrder(inst: Instance): (xs: seq<Instance>)
    ensures |xs| >= 1 && xs[0] == inst
    decreases inst
  {
    [inst] + PreOrderAll(inst.children)
  }

  function PreOrderAll(cs: seq<Instance>): seq<Instance>
    decreases cs
  {
    if cs == [] then [] else PreOrder(cs[0]) + PreOrderAll(cs[1..])
  }

  /** Visits a flat list of instances one after the other. */
  function VisitAll(lib: FloatLib, xs: seq<Instance>, st: ExportState): ExportState
    decreases |xs|
  {
    if xs == [] then st else VisitAll(lib, xs[1..], Visit(lib, xs[0], st))
  }

  lemma {:induction false} VisitAllAppend(lib: FloatLib, xs: seq<Instance>, ys: seq<Instance>, st: ExportState)
    ensures VisitAll(lib, xs + ys, st) == VisitAll(lib, ys, VisitAll(lib, xs, st))
    decreases |xs|
  {
    if xs == [] {
      assert xs + ys == ys;
    } else {
      assert (xs + ys)[0] == xs[0] && (xs + ys)[1..] == xs[1..] + ys;
      VisitAllAppend(lib, xs[1..], ys, Visit(lib, xs[0], st));
    }
  }

  /** The recursive walk visits exactly the pre-order list: each instance
      before its descendants, siblings in order, whether or not it is a
      part. */
  lemma {:induction false} ExportIsPreOrder(lib: FloatLib, inst: Instance, st: ExportState)
    ensures ExportInstance(lib, inst, st) == VisitAll(lib, PreOrder(inst), st)
    decreases inst, 1
  {
    ChildrenArePreOrder(lib, inst.children, Visit(lib, inst, st));
    assert ([inst] + PreOrderAll(inst.children))[1..] == PreOrderAll(inst.children);
  }

  lemma {:induction false} ChildrenArePreOrder(lib: FloatLib, cs: seq<Instance>, st: ExportState)
    ensures ExportChildren(lib, cs, st) == VisitAll(lib, PreOrderAll(cs), st)
    decreases cs, 0
  {
    if cs != [] {
      ExportIsPreOrder(lib, cs[0], st);
      ChildrenArePreOrder(lib, cs[1..], ExportInstance(lib, cs[0], st));
      VisitAllAppend(lib, PreOrder(cs[0]), PreOrderAll(cs[1..]), st);
    }
  }

  // --------------------------------------------------------- invariants

  /** The number of `v` lines. */
  function VertexCount(obj: seq<ObjLine>): nat
    decreases |obj|
  {
    if obj == [] then 0 else VertexCount(obj[..|obj| - 1]) + (if obj[|obj| - 1].Vertex? then 1 else 0)
  }

  lemma {:induction false} VertexCountAppend(a: seq<ObjLine>, b: seq<ObjLine>)
    ensures VertexCount(a + b) == VertexCount(a) + VertexCount(b)
    decreases |b|
  {
    if b == [] {
      assert a + b == a;
    } else {
      var init := b[..|b| - 1];
      assert (a + b)[..|a + b| - 1] == a + init;
      VertexCountAppend(a, init);
    }
  }

  /** Every line of a run of `v` lines counts. */
  lemma {:induction false} AllVertices(ls: seq<ObjLine>)
    requires forall i | 0 <= i < |ls| :: ls[i].Vertex?
    ensures VertexCount(ls) == |ls|
    decreases |ls|
  {
    if ls != [] {
      AllVertices(ls[..|ls| - 1]);
    }
  }

  /** Each `f` line, read after `base` earlier vertices, refers only to
      vertices written before it: its 1-based indices lie in [1, n] where n
      counts the vertices up to that line. */
  ghost predicate FacesResolveAfter(base: nat, obj: seq<ObjLine>) {
    forall i | 0 <= i < |obj| && obj[i].Face? ::
      var n := base + VertexCount(obj[..i]);
      1 <= obj[i].a <= n && 1 <= obj[i].b <= n && 1 <= obj[i].c <= n
  }

  /** Every `f` line has a `usemtl` line somewhere before it. */
  ghost predicate MaterialBeforeFaces(obj: seq<ObjLine>) {
    forall i | 0 <= i < |obj| && obj[i].Face? :: exists j | 0 <= j < i :: obj[j].UseMtl?
  }

  /** Every `usemtl` line names a material whose block has been written. */
  ghost predicate MaterialsWritten(obj: seq<ObjLine>, mats: MaterialState) {
    forall i | 0 <= i < |obj| && obj[i].UseMtl? :: obj[i].id < |mats.mtl|
  }

  /** The flattener's invariant: the offset counts the vertices written, the
      faces resolve, materials come before faces, and the table is valid. */
  ghost predicate Consistent(st: ExportState) {
    && st.offset == VertexCount(st.obj)
    && FacesResolveAfter(0, st.obj)
    && MaterialBeforeFaces(st.obj)
    && Valid(st.materials)
    && MaterialsWritten(st.obj, st.materials)
  }

  lemma ResolveAppend(base: nat, a: seq<ObjLine>, b: seq<ObjLine>)
    requires FacesResolveAfter(base, a) && FacesResolveAfter(base + VertexCount(a), b)
    ensures FacesResolveAfter(base, a + b)
  {
    forall i | 0 <= i < |a + b| && (a + b)[i].Face?
      ensures var n := base + VertexCount((a + b)[..i]);
        1 <= (a + b)[i].a <= n && 1 <= (a + b)[i].b <= n && 1 <= (a + b)[i].c <= n
    {
      if i < |a| {
        assert (a + b)[..i] == a[..i];
      } else {
        ResolveAppendRight(base, a, b, i - |a|);
      }
    }
  }

  /** A face of the second part of `a + b` sees the vertices of `a` before
      those of `b`. */
  lemma ResolveAppendRight(base: nat, a: seq<ObjLine>, b: seq<ObjLine>, k: nat)
    requires FacesResolveAfter(base + VertexCount(a), b)
    requires k < |b| && b[k].Face?
    ensures var n := base + VertexCount((a + b)[..|a| + k]);
      1 <= (a + b)[|a| + k].a <= n && 1 <= (a + b)[|a| + k].b <= n && 1 <= (a + b)[|a| + k].c <= n
  {
    assert (a + b)[..|a| + k] == a + b[..k];
    VertexCountAppend(a, b[..k]);
    assert (a + b)[|a| + k] == b[k];
  }

  /** The lines a part adds on top of an offset of `offset` vertices: faces
      resolve because local indices stay below the local vertex count. */
  lemma PartLinesResolve(m: Mesh, cf: CFrame, id: nat, offset: nat)
    requires WellIndexed(m)
    ensures var head := [UseMtl(id)] + VertexLines(m, cf);
      && VertexCount(head) == |m.vertices|
      && FacesResolveAfter(offset, head)
      && FacesResolveAfter(offset + VertexCount(head), FaceLines(m, offset))
  {
    var vs := VertexLines(m, cf);
    var head := [UseMtl(id)] + vs;
    AllVertices(vs);
    VertexCountAppend([UseMtl(id)], vs);
    assert [UseMtl(id)][..0] == [];
    var fl := FaceLines(m, offset);
    forall i | 0 <= i < |fl| && fl[i].Face?
      ensures var n := offset + VertexCount(head) + VertexCount(fl[..i]);
        1 <= fl[i].a <= n && 1 <= fl[i].b <= n && 1 <= fl[i].c <= n
    {
      assert InRange(m.faces[i], |m.vertices|);
    }
  }

  /** The lines `Place` adds: a `usemtl`, the vertices, the faces. */
  lemma PlaceLines(st: ExportState, m: Mesh, cf: CFrame, key: ColorKey)
    ensures var a := MaterialFor(st.materials, key);
      var head := [UseMtl(a.id)] + VertexLines(m, cf);
      Place(st, m, cf, key).obj == st.obj + (head + FaceLines(m, st.offset))
  {
  }

  /** After a placed mesh the offset still counts the vertices written. */
  lemma PlaceCounts(st: ExportState, m: Mesh, cf: CFrame, key: ColorKey)
    requires st.offset == VertexCount(st.obj) && WellIndexed(m)
    ensures var r := Place(st, m, cf, key); r.offset == VertexCount(r.obj)
  {
    var a := MaterialFor(st.materials, key);
    var head := [UseMtl(a.id)] + VertexLines(m, cf);
    var fl := FaceLines(m, st.offset);
    PlaceLines(st, m, cf, key);
    PartLinesResolve(m, cf, a.id, st.offset);
    FaceLinesNoVertex(fl);
    VertexCountAppend(head, fl);
    VertexCountAppend(st.obj, head + fl);
  }

  /** `f` lines add no vertices. */
  lemma {:induction false} FaceLinesNoVertex(ls: seq<ObjLine>)
    requires forall i | 0 <= i < |ls| :: ls[i].Face?
    ensures VertexCount(ls) == 0
    decreases |ls|
  {
    if ls != [] {
      FaceLinesNoVertex(ls[..|ls| - 1]);
    }
  }

  /** After a placed mesh every face still resolves. */
  lemma PlaceResolves(st: ExportState, m: Mesh, cf: CFrame, key: ColorKey)
    requires st.offset == VertexCount(st.obj) && FacesResolveAfter(0, st.obj) && WellIndexed(m)
    ensures FacesResolveAfter(0, Place(st, m, cf, key).obj)
  {
    var a := MaterialFor(st.materials, key);
    var head := [UseMtl(a.id)] + VertexLines(m, cf);
    var fl := FaceLines(m, st.offset);
    PlaceLines(st, m, cf, key);
    PartLinesResolve(m, cf, a.id, st.offset);
    ResolveAppend(st.offset, head, fl);
    ResolveAppend(0, st.obj, head + fl);
  }

  /** After a placed mesh every face still has a `usemtl` before it. */
  lemma PlaceOrdered(st: ExportState, m: Mesh, cf: CFrame, key: ColorKey)
    requires MaterialBeforeFaces(st.obj)
    ensures MaterialBeforeFaces(Place(st, m, cf, key).obj)
  {
    var a := MaterialFor(st.materials, key);
    var head := [UseMtl(a.id)] + VertexLines(m, cf);
    PlaceLines(st, m, cf, key);
    EmitPartOrdered(st.obj, head + FaceLines(m, st.offset), a.id, Place(st, m, cf, key).obj);
  }

  /** After a placed mesh the table is valid and names every material used. */
  lemma PlaceNames(st: ExportState, m: Mesh, cf: CFrame, key: ColorKey)
    requires Valid(st.materials) && MaterialsWritten(st.obj, st.materials)
    ensures var r := Place(st, m, cf, key); Valid(r.materials) && MaterialsWritten(r.obj, r.materials)
  {
    var a := MaterialFor(st.materials, key);
    var head := [UseMtl(a.id)] + VertexLines(m, cf);
    var added := head + FaceLines(m, st.offset);
    PlaceLines(st, m, cf, key);
    MaterialForValid(st.materials, key);
    assert forall i | 0 <= i < |added| && added[i].UseMtl? :: i == 0;
    EmitPartNames(st, a, added, Place(st, m, cf, key).obj);
  }

  /** A placed mesh's lines open with the one `usemtl` among them, naming the
      material whose block holds the part's key, so all its faces are drawn
      in that material; what was written before is kept. */
  lemma PlaceUsesOwnMaterial(st: ExportState, m: Mesh, cf: CFrame, key: ColorKey)
    requires Valid(st.materials)
    ensures var r := Place(st, m, cf, key);
      var n := |st.obj|;
      && |r.obj| == n + 1 + |m.vertices| + |m.faces|
      && r.obj[..n] == st.obj
      && r.obj[n].UseMtl? && r.obj[n].id < |r.materials.mtl|
      && r.materials.mtl[r.obj[n].id].key == key
      && (forall i | n < i < |r.obj| :: !r.obj[i].UseMtl?)
  {
    MaterialForValid(st.materials, key);
    PlaceLines(st, m, cf, key);
  }

  /** Writing a well-indexed mesh keeps the invariant. */
  lemma PlaceConsistent(st: ExportState, m: Mesh, cf: CFrame, key: ColorKey)
    requires Consistent(st) && WellIndexed(m)
    ensures Consistent(Place(st, m, cf, key))
  {
    PlaceCounts(st, m, cf, key);
    PlaceResolves(st, m, cf, key);
    PlaceOrdered(st, m, cf, key);
    PlaceNames(st, m, cf, key);
  }

  lemma EmitPartOrdered(old_obj: seq<ObjLine>, added: seq<ObjLine>, id: nat, obj: seq<ObjLine>)
    requires MaterialBeforeFaces(old_obj)
    requires |added| >= 1 && added[0] == UseMtl(id)
    requires obj == old_obj + added
    ensures MaterialBeforeFaces(obj)
  {
    forall i | 0 <= i < |obj| && obj[i].Face? ensures exists j | 0 <= j < i :: obj[j].UseMtl? {
      if i < |old_obj| {
        var j :| 0 <= j < i && old_obj[j].UseMtl?;
        assert obj[j] == old_obj[j];
      } else {
        assert obj[|old_obj|] == UseMtl(id);
      }
    }
  }

  lemma EmitPartNames(st: ExportState, a: Assigned, added: seq<ObjLine>, obj: seq<ObjLine>)
    requires MaterialsWritten(st.obj, st.materials)
    requires |st.materials.mtl| <= |a.state.mtl| && a.id < |a.state.mtl|
    requires forall i | 0 <= i < |added| && added[i].UseMtl? :: added[i].id == a.id
    requires obj == st.obj + added
    ensures MaterialsWritten(obj, a.state)
  {
    forall i | 0 <= i < |obj| && obj[i].UseMtl? ensures obj[i].id < |a.state.mtl| {
      if i < |st.obj| {
        assert obj[i] == st.obj[i];
      } else {
        assert obj[i] == added[i - |st.obj|];
      }
    }
  }

  // ------------------------------------------------------ whole scenes

  lemma {:induction false} VisitAllConsistent(lib: FloatLib, xs: seq<Instance>, st: ExportState)
    requires Consistent(st)
    ensures Consistent(VisitAll(lib, xs, st))
    decreases |xs|
  {
    if xs != [] {
      if IsPart(xs[0]) {
        PlaceConsistent(st, MeshFor(lib, xs[0]), FrameOf(xs[0]), KeyOf(xs[0]));
      }
      VisitAllConsistent(lib, xs[1..], Visit(lib, xs[0], st));
    }
  }

  /** The exported scene is consistent: the final offset equals the number
      of vertices written, every face index lies between 1 and the number of
      vertices written before that face, every face comes after a `usemtl`
      that names a written material, and the table is valid. */
  lemma ExportSceneConsistent(lib: FloatLib, roots: seq<Instance>)
    ensures var r := ExportScene(lib, roots);
      && r.offset == VertexCount(r.obj)
      && FacesResolveAfter(0, r.obj)
      && MaterialBeforeFaces(r.obj)
      && Valid(r.materials)
      && MaterialsWritten(r.obj, r.materials)
  {
    ChildrenArePreOrder(lib, roots, Start);
    VisitAllConsistent(lib, PreOrderAll(roots), Start);
  }

  /** The material keys of the parts of a list, in order. */
  function PartKeys(xs: seq<Instance>): (ks: seq<ColorKey>)
    ensures |ks| <= |xs|
    decreases |xs|
  {
    if xs == [] then []
    else (if IsPart(xs[0]) then [KeyOf(xs[0])] else []) + PartKeys(xs[1..])
  }

  /** Visiting a list looks up exactly the keys of its parts, in order. */
  lemma {:induction false} VisitAllMaterials(lib: FloatLib, xs: seq<Instance>, st: ExportState)
    ensures VisitAll(lib, xs, st).materials == AssignAll(st.materials, PartKeys(xs))
    decreases |xs|
  {
    if xs != [] {
      var head := if IsPart(xs[0]) then [KeyOf(xs[0])] else [];
      VisitAllMaterials(lib, xs[1..], Visit(lib, xs[0], st));
      AssignAllAppend(st.materials, head, PartKeys(xs[1..]));
      if IsPart(xs[0]) {
        assert AssignAll(st.materials, head) == MaterialFor(AssignAll(st.materials, []), KeyOf(xs[0])).state by {
          assert head[..0] == [];
        }
      }
    }
  }

  /** The materials of an exported scene are those of its parts' keys taken
      in pre-order: one block per distinct key, numbered in first-seen order,
      and the counter ends at the number of distinct keys. */
  lemma ExportSceneMaterials(lib: FloatLib, roots: seq<Instance>)
    ensures var keys := PartKeys(PreOrderAll(roots));
      var mats := ExportScene(lib, roots).materials;
      && mats == AssignAll(NoMaterials, keys)
      && Order(mats.mtl) == FirstSeen(keys)
      && mats.nextId == |set k | k in keys|
  {
    ChildrenArePreOrder(lib, roots, Start);
    VisitAllMaterials(lib, PreOrderAll(roots), Start);
    AssignAllFirstSeen(PartKeys(PreOrderAll(roots)));
    AssignAllCount(PartKeys(PreOrderAll(roots)));
  }

  /** The material ids named by the `usemtl` lines, in order. */
  function UseMtlIds(obj: seq<ObjLine>): seq<nat>
    decreases |obj|
  {
    if obj == [] then []
    else UseMtlIds(obj[..|obj| - 1]) + (if obj[|obj| - 1].UseMtl? then [obj[|obj| - 1].id] else [])
  }

  lemma {:induction false} UseMtlIdsAppend(a: seq<ObjLine>, b: seq<ObjLine>)
    ensures UseMtlIds(a + b) == UseMtlIds(a) + UseMtlIds(b)
    decreases |b|
  {
    if b == [] {
      assert a + b == a;
    } else {
      var init := b[..|b| - 1];
      assert (a + b)[..|a + b| - 1] == a + init;
      UseMtlIdsAppend(a, init);
    }
  }

  /** A run of lines without `usemtl` names no material. */
  lemma {:induction false} NoUseMtl(ls: seq<ObjLine>)
    requires forall i | 0 <= i < |ls| :: !ls[i].UseMtl?
    ensures UseMtlIds(ls) == []
    decreases |ls|
  {
    if ls != [] {
      NoUseMtl(ls[..|ls| - 1]);
    }
  }

  /** Every key of `a` keeps its id in `b`: ids, once given, never change. */
  predicate IdsKept(a: map<ColorKey, nat>, b: map<ColorKey, nat>) {
    forall k | k in a :: k in b && b[k] == a[k]
  }

  /** A placed mesh adds exactly one `usemtl`, naming the id its key now has,
      and keeps every id given before. */
  lemma PlaceUsesKey(st: ExportState, m: Mesh, cf: CFrame, key: ColorKey)
    ensures var r := Place(st, m, cf, key);
      && IdsKept(st.materials.ids, r.materials.ids)
      && key in r.materials.ids
      && UseMtlIds(r.obj) == UseMtlIds(st.obj) + [r.materials.ids[key]]
  {
    var a := MaterialFor(st.materials, key);
    var vs := VertexLines(m, cf);
    var fl := FaceLines(m, st.offset);
    PlaceLines(st, m, cf, key);
    NoUseMtl(vs);
    NoUseMtl(fl);
    assert [UseMtl(a.id)][..0] == [];
    UseMtlIdsAppend([UseMtl(a.id)], vs);
    UseMtlIdsAppend([UseMtl(a.id)] + vs, fl);
    UseMtlIdsAppend(st.obj, [UseMtl(a.id)] + vs + fl);
  }

  /** The ids `ids` gives the keys of `ks`, in order. */
  function IdsOfKeys(ks: seq<ColorKey>, ids: map<ColorKey, nat>): (us: seq<nat>)
    requires forall k | k in ks :: k in ids
    ensures |us| == |ks| && forall i | 0 <= i < |ks| :: us[i] == ids[ks[i]]
    decreases |ks|
  {
    if ks == [] then [] else [ids[ks[0]]] + IdsOfKeys(ks[1..], ids)
  }

  /** Going from `st` to `r` looked up the keys `ks` and wrote one `usemtl`
      per key, each naming the id that key holds in `r`; ids already given
      in `st` are kept. */
  ghost predicate WritesKeys(st: ExportState, r: ExportState, ks: seq<ColorKey>) {
    && IdsKept(st.materials.ids, r.materials.ids)
    && (forall k | k in ks :: k in r.materials.ids)
    && UseMtlIds(r.obj) == UseMtlIds(st.obj) + IdsOfKeys(ks, r.materials.ids)
  }

  /** Ids that did not change give the same list. */
  lemma IdsOfKeysKept(ks: seq<ColorKey>, a: map<ColorKey, nat>, b: map<ColorKey, nat>)
    requires (forall k | k in ks :: k in a) && IdsKept(a, b)
    ensures IdsOfKeys(ks, a) == IdsOfKeys(ks, b)
  {
    var u, v := IdsOfKeys(ks, a), IdsOfKeys(ks, b);
    assert forall i | 0 <= i < |ks| :: u[i] == v[i];
  }

  lemma IdsOfKeysAppend(ks: seq<ColorKey>, ls: seq<ColorKey>, ids: map<ColorKey, nat>)
    requires (forall k | k in ks :: k in ids) && (forall k | k in ls :: k in ids)
    ensures forall k | k in ks + ls :: k in ids
    ensures IdsOfKeys(ks + ls, ids) == IdsOfKeys(ks, ids) + IdsOfKeys(ls, ids)
  {
    assert forall i | 0 <= i < |ks + ls| :: (ks + ls)[i] in ks || (ks + ls)[i] in ls;
    var u, v := IdsOfKeys(ks + ls, ids), IdsOfKeys(ks, ids) + IdsOfKeys(ls, ids);
    assert forall i | 0 <= i < |u| :: u[i] == v[i];
  }

  /** Two stretches of output that each write their keys write the keys of
      both, in order. */
  lemma WritesKeysAppend(st: ExportState, s1: ExportState, r: ExportState, ks: seq<ColorKey>, ls: seq<ColorKey>)
    requires WritesKeys(st, s1, ks) && WritesKeys(s1, r, ls)
    ensures WritesKeys(st, r, ks + ls)
  {
    var c := r.materials.ids;
    IdsOfKeysKept(ks, s1.materials.ids, c);
    IdsOfKeysAppend(ks, ls, c);
    AppendAssoc(UseMtlIds(st.obj), IdsOfKeys(ks, c), IdsOfKeys(ls, c));
  }

  lemma AppendAssoc(a: seq<nat>, b: seq<nat>, c: seq<nat>)
    ensures (a + b) + c == a + (b + c)
  {
  }

  /** One step of the walk: a part writes the `usemtl` of its own key, a
      container writes none. */
  lemma VisitUsesKey(lib: FloatLib, x: Instance, st: ExportState)
    ensures WritesKeys(st, Visit(lib, x, st), if IsPart(x) then [KeyOf(x)] else [])
  {
    if IsPart(x) {
      PlaceUsesKey(st, MeshFor(lib, x), FrameOf(x), KeyOf(x));
      var r := Visit(lib, x, st);
      assert IdsOfKeys([KeyOf(x)], r.materials.ids) == [r.materials.ids[KeyOf(x)]];
    } else {
      assert IdsOfKeys([], st.materials.ids) == [];
    }
  }

  /** Visiting a list writes one `usemtl` per part, in order, each naming
      the id that part's key holds at the end. */
  lemma {:induction false} VisitAllUsesKeys(lib: FloatLib, xs: seq<Instance>, st: ExportState)
    ensures WritesKeys(st, VisitAll(lib, xs, st), PartKeys(xs))
    decreases |xs|
  {
    if xs == [] {
      assert IdsOfKeys([], st.materials.ids) == [];
    } else {
      var s1 := Visit(lib, xs[0], st);
      VisitUsesKey(lib, xs[0], st);
      VisitAllUsesKeys(lib, xs[1..], s1);
      WritesKeysAppend(st, s1, VisitAll(lib, xs[1..], s1),
                       if IsPart(xs[0]) then [KeyOf(xs[0])] else [], PartKeys(xs[1..]));
    }
  }

  /** In a valid table the listed ids of a key sequence name the blocks of
      those keys, so two entries share an id exactly when their keys match. */
  lemma IdsOfKeysNameBlocks(mats: MaterialState, ks: seq<ColorKey>)
    requires Valid(mats) && forall k | k in ks :: k in mats.ids
    ensures var us := IdsOfKeys(ks, mats.ids);
      && (forall i | 0 <= i < |us| :: us[i] < |mats.mtl| && mats.mtl[us[i]].key == ks[i])
      && (forall i, j | 0 <= i < |us| && 0 <= j < |us| :: us[i] == us[j] <==> ks[i] == ks[j])
  {
  }

  /** In an exported scene the i-th `usemtl` belongs to the i-th part in
      pre-order and names the block holding that part's own key; so two
      parts anywhere in the tree are drawn in the same material exactly
      when their colour and alpha keys are equal. */
  lemma ExportSceneUsesKeys(lib: FloatLib, roots: seq<Instance>)
    ensures var r := ExportScene(lib, roots);
      var ks := PartKeys(PreOrderAll(roots));
      var us := UseMtlIds(r.obj);
      && |us| == |ks|
      && (forall i | 0 <= i < |ks| :: ks[i] in r.materials.ids && us[i] == r.materials.ids[ks[i]])
      && (forall i | 0 <= i < |us| :: us[i] < |r.materials.mtl| && r.materials.mtl[us[i]].key == ks[i])
      && (forall i, j | 0 <= i < |us| && 0 <= j < |us| :: us[i] == us[j] <==> ks[i] == ks[j])
  {
    var r := ExportScene(lib, roots);
    var ks := PartKeys(PreOrderAll(roots));
    ExportSceneConsistent(lib, roots);
    ChildrenArePreOrder(lib, roots, Start);
    VisitAllUsesKeys(lib, PreOrderAll(roots), Start);
    assert UseMtlIds(Start.obj) == [];
    IdsOfKeysNameBlocks(r.materials, ks);
  }

  /** A container that is not a part writes nothing, but its children are
      still exported, in order. */
  lemma ContainerIsTransparent(lib: FloatLib, inst: Instance, st: ExportState)
    requires !IsPart(inst)
    ensures ExportInstance(lib, inst, st) == ExportChildren(lib, inst.children, st)
  {
  }

  // ---------------------------------------------------------- scenarios

  /** Where `Place` puts things: the `usemtl` right after the old lines,
      then the vertices, then face `i` shifted by the old offset. */
  lemma PlaceLayout(st: ExportState, m: Mesh, cf: CFrame, key: ColorKey, i: nat)
    requires i < |m.faces|
    ensures var r := Place(st, m, cf, key);
      var n := |st.obj|;
      && |r.obj| == n + 1 + |m.vertices| + |m.faces|
      && r.obj[n] == UseMtl(MaterialFor(st.materials, key).id)
      && r.obj[n + 1 + |m.vertices| + i]
         == Face(m.faces[i].a + st.offset + 1, m.faces[i].b + st.offset + 1, m.faces[i].c + st.offset + 1)
  {
    PlaceLines(st, m, cf, key);
  }

  /** A part with no properties gets the unit box. */
  lemma DefaultPartMesh(lib: FloatLib)
    ensures MeshFor(lib, Instance("Part", map[], [])) == Cube(Vec3(1.0, 1.0, 1.0))
  {
    Defaults("Part", []);
  }

  /** A part is written by `Place` with its own mesh, frame and key, then
      its children follow. */
  lemma PartPlaced(lib: FloatLib, inst: Instance, st: ExportState)
    requires IsPart(inst)
    ensures ExportInstance(lib, inst, st)
      == ExportChildren(lib, inst.children, Place(st, MeshFor(lib, inst), FrameOf(inst), KeyOf(inst)))
  {
  }

  /** What one default part writes on top of any state: a `usemtl` for the
      white opaque key, 8 vertices, then 12 faces starting with the box's
      first face shifted past the vertices already written. */
  lemma DefaultBlock(lib: FloatLib, st: ExportState)
    ensures var p := Instance("Part", map[], []);
      var a := MaterialFor(st.materials, ColorKey(255, 255, 255, 255));
      var r := ExportInstance(lib, p, st);
      var n := |st.obj|;
      && |r.obj| == n + 21 && r.offset == st.offset + 8 && r.materials == a.state
      && r.obj[n] == UseMtl(a.id)
      && r.obj[n + 9] == Face(st.offset + 1, st.offset + 2, st.offset + 3)
  {
    var p := Instance("Part", map[], []);
    var m := MeshFor(lib, p);
    Defaults("Part", []);
    DefaultPartMesh(lib);
    PartPlaced(lib, p, st);
    assert ExportChildren(lib, [], Place(st, m, FrameOf(p), KeyOf(p))) == Place(st, m, FrameOf(p), KeyOf(p));
    assert m.faces[0] == Tri(0, 1, 2);
    PlaceLayout(st, m, FrameOf(p), KeyOf(p), 0);
  }

  /** Two default parts side by side: both are white opaque 1x1x1 blocks, so
      they share material 0; the second block's faces are shifted past the
      first block's 8 vertices. */
  lemma TwoBlocks(lib: FloatLib)
    ensures var p := Instance("Part", map[], []);
      var r := ExportScene(lib, [p, p]);
      && r.offset == 16 && |r.obj| == 42
      && r.materials.mtl == [MtlEntry(0, ColorKey(255, 255, 255, 255))]
      && r.obj[0] == UseMtl(0) && r.obj[9] == Face(1, 2, 3)
      && r.obj[21] == UseMtl(0) && r.obj[30] == Face(9, 10, 11)
  {
    var p := Instance("Part", map[], []);
    var s1 := ExportInstance(lib, p, Start);
    var s2 := ExportInstance(lib, p, s1);
    DefaultBlock(lib, Start);
    DefaultBlock(lib, s1);
    assert s2.obj[0] == s1.obj[0] && s2.obj[9] == s1.obj[9];
    assert [p, p][1..] == [p] && [p][1..] == [];
    assert ExportChildren(lib, [p], s1) == ExportChildren(lib, [], s2) == s2;
    assert ExportChildren(lib, [p, p], Start) == ExportChildren(lib, [p], s1);
  }
}

=== FILE: materials.dfy ===
/** The exporter's material table: every distinct colour-and-opacity key gets
    one MTL material, numbered in the order the keys are first seen. */
module Materials {
  import opened Numeric
  import Cardinality

  /** An 8-bit channel value. */
  type Byte = x: int | 0 <= x < 256

  /** A material is identified by its colour and opacity bytes. */
  datatype ColorKey = ColorKey(r: Byte, g: Byte, b: Byte, a: Byte)

  /** One block of the MTL output: material number `id` (written on the
      `newmtl` line as its name) with the colour it stands for. */
  datatype MtlEntry = MtlEntry(id: nat, key: ColorKey)

  /** The colour on the block's `Kd` line: each channel over 255. */
  function Diffuse(e: MtlEntry): Vec3 {
    Vec3(e.key.r as real / 255.0, e.key.g as real / 255.0, e.key.b as real / 255.0)
  }

  /** The opacity on the block's `d` line. */
  function Dissolve(e: MtlEntry): real {
    e.key.a as real / 255.0
  }

  /** The numbers written for a block lie in [0, 1] and determine its key. */
  lemma EntryValues(e: MtlEntry, f: MtlEntry)
    ensures 0.0 <= Diffuse(e).x <= 1.0 && 0.0 <= Diffuse(e).y <= 1.0 && 0.0 <= Diffuse(e).z <= 1.0
    ensures 0.0 <= Dissolve(e) <= 1.0
    ensures Diffuse(e) == Diffuse(f) && Dissolve(e) == Dissolve(f) ==> e.key == f.key
  {
  }

  // ------------------------------------------------------------ opacity

  /** The opacity byte of a part: (1 - transparency) * 255 converted by a
      float-to-integer cast that truncates toward zero and saturates at 0
      and 255. */
  function AlphaByte(transparency: real): (a: Byte)
    ensures var v := (1.0 - transparency) * 255.0;
      && (v <= 0.0 ==> a == 0)
      && (v >= 255.0 ==> a == 255)
      && (0.0 < v < 255.0 ==> a as real <= v < a as real + 1.0)
  {
    var v := (1.0 - transparency) * 255.0;
    if v <= 0.0 then 0 else if v >= 255.0 then 255 else v.Floor
  }

  /** More transparency never gives a larger opacity byte. */
  lemma AlphaMonotone(s: real, t: real)
    requires s <= t
    ensures AlphaByte(t) <= AlphaByte(s)
  {
    var vs := (1.0 - s) * 255.0;
    var vt := (1.0 - t) * 255.0;
    assert vt <= vs;
  }

  /** Opaque parts get 255, invisible ones 0, and a half-transparent part
      127: the cast truncates rather than rounds. Values outside [0, 1]
      saturate. */
  lemma AlphaExamples()
    ensures AlphaByte(0.0) == 255 && AlphaByte(1.0) == 0
    ensures AlphaByte(0.5) == 127
    ensures AlphaByte(-1.0) == 255 && AlphaByte(2.0) == 0
  {
  }

  // ------------------------------------------------------------- names

  predicate IsDigit(c: char) {
    '0' <= c <= '9'
  }

  predicate AllDigits(s: string) {
    forall i | 0 <= i < |s| :: IsDigit(s[i])
  }

  function DigitChar(d: nat): (c: char)
    requires d < 10
    ensures IsDigit(c)
  {
    (48 + d) as char
  }

  function DigitValue(c: char): nat
    requires IsDigit(c)
  {
    c as int - 48
  }

  /** The decimal numeral of `n` as `{}` formatting writes it: at least one
      digit and no leading zero. */
  function Decimal(n: nat): (s: string)
    ensures 1 <= |s| && AllDigits(s)
    ensures (|s| == 1) == (n < 10)
    ensures n >= 10 ==> s[0] != '0'
    decreases n
  {
    if n < 10 then [DigitChar(n)] else Decimal(n / 10) + [DigitChar(n % 10)]
  }

  /** Reads a numeral back: the partner of `Decimal`. */
  function ParseDecimal(s: string): nat
    requires AllDigits(s)
    decreases |s|
  {
    if s == [] then 0 else ParseDecimal(s[..|s| - 1]) * 10 + DigitValue(s[|s| - 1])
  }

  lemma {:induction false} DecimalRoundTrip(n: nat)
    ensures ParseDecimal(Decimal(n)) == n
    decreases n
  {
    if n >= 10 {
      DecimalRoundTrip(n / 10);
      var s := Decimal(n);
      assert s[..|s| - 1] == Decimal(n / 10);
    }
  }

  /** The name of material number `id`: `mat_` then the number. */
  function MatName(id: nat): (s: string)
    ensures |s| > 4 && s[..4] == "mat_" && AllDigits(s[4..])
    ensures ParseDecimal(s[4..]) == id
  {
    var s := "mat_" + Decimal(id);
    assert s[4..] == Decimal(id);
    DecimalRoundTrip(id);
    s
  }

  /** The name written for a block. */
  function EntryName(e: MtlEntry): string {
    MatName(e.id)
  }

  /** Different numbers give different names. */
  lemma MatNameInjective(i: nat, j: nat)
    ensures MatName(i) == MatName(j) <==> i == j
  {
  }

  // ------------------------------------------------------------- table

  /** The exporter's material bookkeeping: the map from key to material
      number (material `n` is called `MatName(n)`), the number the next new
      material gets, and the MTL blocks written so far. */
  datatype MaterialState = MaterialState(ids: map<ColorKey, nat>, nextId: nat, mtl: seq<MtlEntry>)

  const NoMaterials: MaterialState := MaterialState(map[], 0, [])

  /** The keys of the written blocks, in writing order. */
  function Order(mtl: seq<MtlEntry>): (keys: seq<ColorKey>)
    ensures |keys| == |mtl|
    ensures forall i | 0 <= i < |mtl| :: keys[i] == mtl[i].key
  {
    seq(|mtl|, i requires 0 <= i < |mtl| => mtl[i].key)
  }

  /** The bookkeeping agrees with itself: block `i` is material `i`, and the map
      and the block list are inverse to each other. */
  ghost predicate Valid(st: MaterialState) {
    && |st.mtl| == st.nextId
    && (forall i | 0 <= i < |st.mtl| :: st.mtl[i].id == i)
    && (forall i | 0 <= i < |st.mtl| :: st.mtl[i].key in st.ids && st.ids[st.mtl[i].key] == i)
    && (forall k | k in st.ids :: st.ids[k] < |st.mtl| && st.mtl[st.ids[k]].key == k)
  }

  /** In a valid table no key is written twice. */
  lemma ValidKeysDistinct(st: MaterialState)
    requires Valid(st)
    ensures forall i, j | 0 <= i < j < |st.mtl| :: st.mtl[i].key != st.mtl[j].key
  {
  }

  /** In a valid table no name is written twice. */
  lemma ValidNamesDistinct(st: MaterialState)
    requires Valid(st)
    ensures forall i, j | 0 <= i < j < |st.mtl| :: EntryName(st.mtl[i]) != EntryName(st.mtl[j])
  {
    forall i, j | 0 <= i < j < |st.mtl| ensures EntryName(st.mtl[i]) != EntryName(st.mtl[j]) {
      MatNameInjective(i, j);
    }
  }

  /** In a valid table the counter equals the number of distinct keys. */
  lemma ValidSize(st: MaterialState)
    requires Valid(st)
    ensures |st.ids| == st.nextId
  {
    var keys := Order(st.mtl);
    ValidKeysDistinct(st);
    Cardinality.DistinctElements(keys);
    forall x | x in keys ensures x in st.ids {
      var i :| 0 <= i < |keys| && keys[i] == x;
    }
    forall x | x in st.ids ensures x in keys {
      assert keys[st.ids[x]] == x;
    }
    assert st.ids.Keys == set x | x in keys;
  }

  /** The result of looking a key up: its material number and the updated
      table. */
  datatype Assigned = Assigned(id: nat, state: MaterialState)

  /** Looks a key up, inserting it on first sight: a known key keeps its
      number and changes nothing; a new key gets the next number, the counter
      advances, and exactly one block is written. */
  function MaterialFor(st: MaterialState, key: ColorKey): (r: Assigned)
    ensures key in r.state.ids && r.state.ids[key] == r.id
    ensures key in st.ids ==> r.id == st.ids[key] && r.state == st
    ensures key !in st.ids ==>
      && r.id == st.nextId
      && r.state.nextId == st.nextId + 1
      && r.state.ids == st.ids[key := r.id]
      && r.state.mtl == st.mtl + [MtlEntry(r.id, key)]
  {
    if key in st.ids then Assigned(st.ids[key], st)
    else
      var id := st.nextId;
      Assigned(id, MaterialState(st.ids[key := id], st.nextId + 1, st.mtl + [MtlEntry(id, key)]))
  }

  /** A lookup keeps the table valid, and the number it returns is that of
      the block holding the key. */
  lemma MaterialForValid(st: MaterialState, key: ColorKey)
    requires Valid(st)
    ensures var r := MaterialFor(st, key);
      && Valid(r.state)
      && r.id < |r.state.mtl|
      && r.state.mtl[r.id] == MtlEntry(r.id, key)
  {
    var r := MaterialFor(st, key);
    if key !in st.ids {
      var n := |st.mtl|;
      var s := r.state;
      forall i | 0 <= i < |s.mtl| ensures s.mtl[i].key in s.ids && s.ids[s.mtl[i].key] == i {
        if i < n {
          assert s.mtl[i] == st.mtl[i];
        }
      }
    }
  }

  // ----------------------------------------------- first-seen reference

  /** Where `k` first occurs in `keys`. */
  function FirstIndex(keys: seq<ColorKey>, k: ColorKey): (i: nat)
    requires k in keys
    ensures i < |keys| && keys[i] == k
    ensures forall j | 0 <= j < i :: keys[j] != k
    decreases |keys|
  {
    if keys[0] == k then 0 else 1 + FirstIndex(keys[1..], k)
  }

  /** A key of a prefix first occurs where it first occurs in the prefix. */
  lemma FirstIndexPrefix(keys: seq<ColorKey>, n: nat, k: ColorKey)
    requires n <= |keys| && k in keys[..n]
    ensures FirstIndex(keys, k) == FirstIndex(keys[..n], k)
  {
    var b := FirstIndex(keys[..n], k);
    assert keys[b] == k;
  }

  /** The distinct keys of a sequence, each at its first occurrence: the
      reference for the order in which materials are numbered. */
  function FirstSeen(keys: seq<ColorKey>): (d: seq<ColorKey>)
    ensures forall k :: k in d <==> k in keys
    ensures forall i, j | 0 <= i < j < |d| :: d[i] != d[j]
    ensures forall i, j | 0 <= i < j < |d| :: FirstIndex(keys, d[i]) < FirstIndex(keys, d[j])
    decreases |keys|
  {
    if keys == [] then []
    else
      var init := keys[..|keys| - 1];
      var p := FirstSeen(init);
      var k := keys[|keys| - 1];
      assert forall x :: x in keys <==> x in init || x == k;
      assert forall i | 0 <= i < |p| :: FirstIndex(keys, p[i]) == FirstIndex(init, p[i]) by {
        forall i | 0 <= i < |p| ensures FirstIndex(keys, p[i]) == FirstIndex(init, p[i]) {
          FirstIndexPrefix(keys, |keys| - 1, p[i]);
        }
      }
      if k in p then p
      else
        var d := p + [k];
        assert FirstIndex(keys, k) == |keys| - 1;
        assert forall i | 0 <= i < |p| :: FirstIndex(keys, d[i]) < FirstIndex(keys, k) by {
          forall i | 0 <= i < |p| ensures FirstIndex(keys, d[i]) < FirstIndex(keys, k) {
            assert d[i] == p[i];
          }
        }
        d
  }

  /** Looks up every key of a sequence in turn. */
  function AssignAll(st: MaterialState, keys: seq<ColorKey>): (r: MaterialState)
    decreases |keys|
  {
    if keys == [] then st else MaterialFor(AssignAll(st, keys[..|keys| - 1]), keys[|keys| - 1]).state
  }

  /** Looking up two key sequences in turn is looking up their
      concatenation. */
  lemma {:induction false} AssignAllAppend(st: MaterialState, ks: seq<ColorKey>, ls: seq<ColorKey>)
    ensures AssignAll(st, ks + ls) == AssignAll(AssignAll(st, ks), ls)
    decreases |ls|
  {
    if ls == [] {
      assert ks + ls == ks;
    } else {
      var init := ls[..|ls| - 1];
      assert (ks + ls)[..|ks + ls| - 1] == ks + init;
      assert (ks + ls)[|ks + ls| - 1] == ls[|ls| - 1];
      AssignAllAppend(st, ks, init);
    }
  }

  /** One lookup appends its key to the block order exactly when the key is
      new. */
  lemma MaterialForOrder(st: MaterialState, key: ColorKey)
    requires Valid(st)
    ensures var r := MaterialFor(st, key);
      && Valid(r.state)
      && Order(r.state.mtl)
         == if key in Order(st.mtl) then Order(st.mtl) else Order(st.mtl) + [key]
  {
    MaterialForValid(st, key);
    if key in st.ids {
      assert Order(st.mtl)[st.ids[key]] == key;
    } else {
      assert key !in Order(st.mtl);
      assert Order(MaterialFor(st, key).state.mtl) == Order(st.mtl) + [key];
    }
  }

  /** Looking up a sequence of keys from an empty table writes one block per
      distinct key, in first-seen order, block `i` being material `i`. */
  lemma {:induction false} AssignAllFirstSeen(keys: seq<ColorKey>)
    ensures var st := AssignAll(NoMaterials, keys);
      Valid(st) && Order(st.mtl) == FirstSeen(keys)
    decreases |keys|
  {
    if keys != [] {
      var init := keys[..|keys| - 1];
      AssignAllFirstSeen(init);
      MaterialForOrder(AssignAll(NoMaterials, init), keys[|keys| - 1]);
    }
  }

  /** The counter ends at the number of distinct keys looked up. */
  lemma AssignAllCount(keys: seq<ColorKey>)
    ensures AssignAll(NoMaterials, keys).nextId == |set k | k in keys|
  {
    AssignAllFirstSeen(keys);
    var d := FirstSeen(keys);
    Cardinality.DistinctElements(d);
    assert (set x | x in d) == (set x | x in keys);
  }
}

=== FILE: mesh.dfy ===
/** Indexed triangle meshes and the vocabulary used to state their topology:
    undirected edges, which face uses which edge, index ranges. */
module MeshBase {
  import opened Numeric
  import Cardinality

  /** One triangle, as three indices into a vertex list. */
  datatype Tri = Tri(a: nat, b: nat, c: nat)

  /** A local mesh as the builders return it: vertices and index triples. */
  datatype Mesh = Mesh(vertices: seq<Vec3>, faces: seq<Tri>)

  /** An undirected edge, stored with its smaller endpoint first. */
  datatype Edge = Edge(lo: nat, hi: nat)

  /** The order-independent key of the edge between `x` and `y`. */
  function EdgeKey(x: nat, y: nat): Edge {
    if x < y then Edge(x, y) else Edge(y, x)
  }

  function FaceEdges(t: Tri): set<Edge> {
    {EdgeKey(t.a, t.b), EdgeKey(t.b, t.c), EdgeKey(t.c, t.a)}
  }

  /** Every undirected edge used by some face of the list. */
  function Edges(fs: seq<Tri>): set<Edge> {
    set t, e | t in fs && e in FaceEdges(t) :: e
  }

  function Corners(t: Tri): set<nat> {
    {t.a, t.b, t.c}
  }

  function Ends(e: Edge): set<nat> {
    {e.lo, e.hi}
  }

  predicate Has(t: Tri, x: nat) {
    x == t.a || x == t.b || x == t.c
  }

  predicate InRange(t: Tri, n: nat) {
    t.a < n && t.b < n && t.c < n
  }

  /** Every index of every face is below `n`. */
  predicate IndexedBelow(fs: seq<Tri>, n: nat) {
    forall i | 0 <= i < |fs| :: InRange(fs[i], n)
  }

  /** No face refers to a vertex that does not exist. */
  predicate WellIndexed(m: Mesh) {
    IndexedBelow(m.faces, |m.vertices|)
  }

  /** The three corners of the triangle are different vertices. */
  predicate NonDegenerate(t: Tri) {
    t.a != t.b && t.b != t.c && t.c != t.a
  }

  predicate AllNonDegenerate(fs: seq<Tri>) {
    forall i | 0 <= i < |fs| :: NonDegenerate(fs[i])
  }

  /** Every corner of `s` is a corner of `t`. */
  predicate SameCorners(s: Tri, t: Tri) {
    Has(t, s.a) && Has(t, s.b) && Has(t, s.c)
  }

  /** No two faces of the list are built on the same vertices. */
  predicate NoRepeatedFace(fs: seq<Tri>) {
    forall i, j | 0 <= i < |fs| && 0 <= j < |fs| && i != j :: !SameCorners(fs[i], fs[j])
  }

  /** How many faces of the list use the undirected edge `e`. */
  function EdgeUses(fs: seq<Tri>, e: Edge): nat {
    UsesFrom(fs, e, 0)
  }

  /** How many faces from position `k` on use `e`. */
  function UsesFrom(fs: seq<Tri>, e: Edge, k: nat): nat
    requires k <= |fs|
    decreases |fs| - k
  {
    if k == |fs| then 0
    else (if e in FaceEdges(fs[k]) then 1 else 0) + UsesFrom(fs, e, k + 1)
  }

  /** Each edge that occurs is shared by exactly two faces: the surface is closed. */
  predicate EveryEdgeTwice(fs: seq<Tri>) {
    forall e | e in Edges(fs) :: EdgeUses(fs, e) == 2
  }

  /** Lexicographic order on edges, used to list an edge set without repeats. */
  predicate EdgeBefore(d: Edge, e: Edge) {
    d.lo < e.lo || (d.lo == e.lo && d.hi < e.hi)
  }

  predicate StrictlyAscending(es: seq<Edge>) {
    forall i | 0 <= i < |es| - 1 :: EdgeBefore(es[i], es[i + 1])
  }

  lemma EdgeKeySymmetric(x: nat, y: nat)
    ensures EdgeKey(x, y) == EdgeKey(y, x)
  {
  }

  /** The key of an edge is ordered and has exactly the two given endpoints. */
  lemma EndsOfKey(x: nat, y: nat)
    ensures EdgeKey(x, y).lo <= EdgeKey(x, y).hi
    ensures Ends(EdgeKey(x, y)) == {x, y}
  {
  }

  /** Appending a face adds exactly its three edges. */
  lemma EdgesSnoc(fs: seq<Tri>, t: Tri)
    ensures Edges(fs + [t]) == Edges(fs) + FaceEdges(t)
  {
    var l := fs + [t];
    forall e | e in Edges(l) ensures e in Edges(fs) + FaceEdges(t) {
      var u :| u in l && e in FaceEdges(u);
      if u != t {
        assert u in fs;
      }
    }
    forall e | e in Edges(fs) ensures e in Edges(l) {
      var u :| u in fs && e in FaceEdges(u);
      assert u in l;
    }
    assert t in l;
  }

  /** An edge of a well-indexed face list joins two existing vertices; it
      joins two different ones when no face is degenerate. */
  lemma EdgeEndsBelow(fs: seq<Tri>, n: nat, e: Edge)
    requires IndexedBelow(fs, n)
    requires e in Edges(fs)
    ensures e.lo <= e.hi < n
    ensures AllNonDegenerate(fs) ==> e.lo < e.hi
  {
    var t :| t in fs && e in FaceEdges(t);
    var i :| 0 <= i < |fs| && fs[i] == t;
    assert InRange(fs[i], n);
  }

  /** Two different edges of a proper triangle span all three of its corners. */
  lemma TwoEdgesSpanFace(t: Tri, d: Edge, e: Edge)
    requires NonDegenerate(t)
    requires d in FaceEdges(t) && e in FaceEdges(t) && d != e
    ensures Ends(d) + Ends(e) == Corners(t)
  {
    EndsOfKey(t.a, t.b);
    EndsOfKey(t.b, t.c);
    EndsOfKey(t.c, t.a);
  }

  /** Two proper triangles sharing two different edges have the same corners. */
  lemma {:induction false} SharedEdgesSameCorners(s: Tri, t: Tri, d: Edge, e: Edge)
    requires NonDegenerate(s) && NonDegenerate(t)
    requires d in FaceEdges(s) && e in FaceEdges(s) && d != e
    requires d in FaceEdges(t) && e in FaceEdges(t)
    ensures SameCorners(s, t)
  {
    TwoEdgesSpanFace(s, d, e);
    TwoEdgesSpanFace(t, d, e);
    assert Corners(s) == Corners(t);
    assert s.a in Corners(t) && s.b in Corners(t) && s.c in Corners(t);
  }

  /** A strictly ascending list of edges has no repeats, so it has as many
      distinct elements as entries. */
  lemma {:induction false} AscendingCard(es: seq<Edge>)
    requires StrictlyAscending(es)
    ensures |set e | e in es| == |es|
  {
    forall i, j | 0 <= i < j < |es| ensures EdgeBefore(es[i], es[j]) {
      AscendingFrom(es, i, j);
    }
    Cardinality.DistinctElements(es);
  }

  lemma {:induction false} AscendingFrom(es: seq<Edge>, i: nat, j: nat)
    requires StrictlyAscending(es)
    requires i < j < |es|
    ensures EdgeBefore(es[i], es[j])
    decreases j - i
  {
    if i + 1 < j {
      AscendingFrom(es, i + 1, j);
    }
  }

  /** A case split on a small index, for facts about the fixed tables. */
  lemma SmallIndex(i: nat)
    requires i < 30
    ensures || i == 0 || i == 1 || i == 2 || i == 3 || i == 4 || i == 5 || i == 6 || i == 7
            || i == 8 || i == 9 || i == 10 || i == 11 || i == 12 || i == 13 || i == 14
            || i == 15 || i == 16 || i == 17 || i == 18 || i == 19 || i == 20 || i == 21
            || i == 22 || i == 23 || i == 24 || i == 25 || i == 26 || i == 27 || i == 28
            || i == 29
  {
  }

  /** Some face from position `k` on uses `e` exactly when the count is positive. */
  lemma {:induction false} UsesFromPositive(fs: seq<Tri>, e: Edge, k: nat)
    requires k <= |fs|
    ensures UsesFrom(fs, e, k) > 0 <==> exists j :: k <= j < |fs| && e in FaceEdges(fs[j])
    decreases |fs| - k
  {
    if k < |fs| {
      UsesFromPositive(fs, e, k + 1);
    }
  }

  /** A face list uses an edge exactly when some face has it. */
  lemma EdgeUsesPositive(fs: seq<Tri>, e: Edge)
    ensures EdgeUses(fs, e) > 0 <==> e in Edges(fs)
  {
    UsesFromPositive(fs, e, 0);
    if e in Edges(fs) {
      var t :| t in fs && e in FaceEdges(t);
      var j :| 0 <= j < |fs| && fs[j] == t;
    }
  }

  /** Faces `i` and `j` use `e`, and no other face does. */
  predicate UsedExactlyBy(fs: seq<Tri>, e: Edge, i: nat, j: nat) {
    && i < j < |fs|
    && forall k | 0 <= k < |fs| :: e in FaceEdges(fs[k]) <==> (k == i || k == j)
  }

  lemma {:induction false} UsesFromPair(fs: seq<Tri>, e: Edge, i: nat, j: nat, k: nat)
    requires UsedExactlyBy(fs, e, i, j)
    requires k <= |fs|
    ensures UsesFrom(fs, e, k) == (if k <= i then 1 else 0) + (if k <= j then 1 else 0)
    decreases |fs| - k
  {
    if k < |fs| {
      UsesFromPair(fs, e, i, j, k + 1);
    }
  }

  /** Closedness from a table: if every edge of `fs` occurs in the ascending
      list `es`, and `shared[p]` names the only two faces that use `es[p]`,
      then `es` lists exactly the edges of `fs` and each is used twice. */
  lemma ClosedFromTable(fs: seq<Tri>, es: seq<Edge>, shared: seq<(nat, nat)>)
    requires Edges(fs) <= set e | e in es
    requires |shared| == |es|
    requires forall p | 0 <= p < |es| :: UsedExactlyBy(fs, es[p], shared[p].0, shared[p].1)
    requires StrictlyAscending(es)
    ensures Edges(fs) == set e | e in es
    ensures |Edges(fs)| == |es|
    ensures EveryEdgeTwice(fs)
  {
    forall p | 0 <= p < |es| ensures EdgeUses(fs, es[p]) == 2 {
      UsesFromPair(fs, es[p], shared[p].0, shared[p].1, 0);
    }
    forall e | e in es ensures e in Edges(fs) && EdgeUses(fs, e) == 2 {
      var p :| 0 <= p < |es| && es[p] == e;
      EdgeUsesPositive(fs, e);
    }
    AscendingCard(es);
  }

  /** `pos[k]` gives, for face k, where its three edges sit in `es`. */
  predicate ListedAt(fs: seq<Tri>, es: seq<Edge>, pos: seq<(nat, nat, nat)>) {
    && |pos| == |fs|
    && forall k | 0 <= k < |fs| ::
      && pos[k].0 < |es| && pos[k].1 < |es| && pos[k].2 < |es|
      && es[pos[k].0] == EdgeKey(fs[k].a, fs[k].b)
      && es[pos[k].1] == EdgeKey(fs[k].b, fs[k].c)
      && es[pos[k].2] == EdgeKey(fs[k].c, fs[k].a)
  }

  /** `w[p]` names a face that uses `es[p]`. */
  predicate WitnessedBy(fs: seq<Tri>, es: seq<Edge>, w: seq<nat>) {
    && |w| == |es|
    && forall p | 0 <= p < |es| :: w[p] < |fs| && es[p] in FaceEdges(fs[w[p]])
  }

  /** An ascending list that holds every edge of `fs`, each element used by
      some face, lists exactly the edges of `fs`. */
  lemma CountFromList(fs: seq<Tri>, es: seq<Edge>, pos: seq<(nat, nat, nat)>, w: seq<nat>)
    requires ListedAt(fs, es, pos) && WitnessedBy(fs, es, w) && StrictlyAscending(es)
    ensures Edges(fs) == set e | e in es
    ensures |Edges(fs)| == |es|
  {
    EdgesInList(fs, es, pos);
    ListInEdges(fs, es, w);
    AscendingCard(es);
  }

  lemma EdgesInList(fs: seq<Tri>, es: seq<Edge>, pos: seq<(nat, nat, nat)>)
    requires ListedAt(fs, es, pos)
    ensures Edges(fs) <= set e | e in es
  {
    forall e | e in Edges(fs) ensures e in es {
      var t :| t in fs && e in FaceEdges(t);
      var k :| 0 <= k < |fs| && fs[k] == t;
      var (p, q, r) := pos[k];
      assert es[p] in es && es[q] in es && es[r] in es;
    }
  }

  lemma ListInEdges(fs: seq<Tri>, es: seq<Edge>, w: seq<nat>)
    requires WitnessedBy(fs, es, w)
    ensures (set e | e in es) <= Edges(fs)
  {
    forall e | e in es ensures e in Edges(fs) {
      var p :| 0 <= p < |es| && es[p] == e;
      assert fs[w[p]] in fs;
    }
  }
}

=== FILE: numeric.dfy ===
/** Vectors, 3x3 orientation matrices and coordinate frames over exact reals.

    The converter stores coordinates as 32-bit floats; this model uses Dafny's
    `real`, so rounding is not represented. The few floating-point library
    routines the mesh builders call (square root, cosine, sine, length
    normalisation) are supplied from outside through `FloatLib`. */
module Numeric {

  datatype Vec3 = Vec3(x: real, y: real, z: real)

  /** A row-major orientation matrix: `x`, `y` and `z` are its rows. */
  datatype Matrix3 = Matrix3(x: Vec3, y: Vec3, z: Vec3)

  /** A placement: an orientation followed by a translation to `position`. */
  datatype CFrame = CFrame(position: Vec3, orientation: Matrix3)

  /** The floating-point routines the mesh builders need. They are foreign
      code here: `sqrt`, `cos` and `sin` stand for the f32 intrinsics and
      `normalize` for dividing a vector by its own length. */
  datatype FloatLib = FloatLib(
    sqrt: real -> real,
    cos: real -> real,
    sin: real -> real,
    pi: real,
    normalize: Vec3 -> Vec3)

  const Origin: Vec3 := Vec3(0.0, 0.0, 0.0)

  function Identity(): Matrix3 {
    Matrix3(Vec3(1.0, 0.0, 0.0), Vec3(0.0, 1.0, 0.0), Vec3(0.0, 0.0, 1.0))
  }

  /** The placement used when an instance carries none. */
  function IdentityFrame(): CFrame {
    CFrame(Origin, Identity())
  }

  function Add(u: Vec3, v: Vec3): Vec3 {
    Vec3(u.x + v.x, u.y + v.y, u.z + v.z)
  }

  function Scale(k: real, v: Vec3): Vec3 {
    Vec3(k * v.x, k * v.y, k * v.z)
  }

  function Dot(u: Vec3, v: Vec3): real {
    u.x * v.x + u.y * v.y + u.z * v.z
  }

  /** Matrix-vector product: each output axis is one row dotted with `v`. */
  function ApplyMatrix3(m: Matrix3, v: Vec3): Vec3 {
    Vec3(Dot(m.x, v), Dot(m.y, v), Dot(m.z, v))
  }

  /** Local-to-world: rotate by the orientation, then translate. */
  function ApplyCFrame(v: Vec3, cf: CFrame): Vec3 {
    var r := ApplyMatrix3(cf.orientation, v);
    Vec3(r.x + cf.position.x, r.y + cf.position.y, r.z + cf.position.z)
  }

  /** Column `j` of a matrix. */
  function Column(m: Matrix3, j: nat): Vec3
    requires j < 3
  {
    if j == 0 then Vec3(m.x.x, m.y.x, m.z.x)
    else if j == 1 then Vec3(m.x.y, m.y.y, m.z.y)
    else Vec3(m.x.z, m.y.z, m.z.z)
  }

  /** The matrix product `a * b`, entry (i, j) being row i of `a` dotted with
      column j of `b`; an independent definition used to state composition. */
  function Mul(a: Matrix3, b: Matrix3): Matrix3 {
    Matrix3(
      Vec3(Dot(a.x, Column(b, 0)), Dot(a.x, Column(b, 1)), Dot(a.x, Column(b, 2))),
      Vec3(Dot(a.y, Column(b, 0)), Dot(a.y, Column(b, 1)), Dot(a.y, Column(b, 2))),
      Vec3(Dot(a.z, Column(b, 0)), Dot(a.z, Column(b, 1)), Dot(a.z, Column(b, 2))))
  }

  /** The frame that first applies `inner` and then `outer`. */
  function Compose(outer: CFrame, inner: CFrame): CFrame {
    CFrame(ApplyCFrame(inner.position, outer), Mul(outer.orientation, inner.orientation))
  }

  /** The rotation by a quarter turn about the z axis (x goes to y). */
  function QuarterTurnZ(): Matrix3 {
    Matrix3(Vec3(0.0, -1.0, 0.0), Vec3(1.0, 0.0, 0.0), Vec3(0.0, 0.0, 1.0))
  }

  /** The identity orientation leaves every vector unchanged. */
  lemma IdentityFixes(v: Vec3)
    ensures ApplyMatrix3(Identity(), v) == v
  {
  }

  /** The default placement leaves every local vertex where it is. */
  lemma IdentityFrameFixes(v: Vec3)
    ensures ApplyCFrame(v, IdentityFrame()) == v
  {
  }

  /** The matrix part is a linear map: it preserves sums and scalings. */
  lemma MatrixLinear(m: Matrix3, u: Vec3, v: Vec3, k: real)
    ensures ApplyMatrix3(m, Add(u, v)) == Add(ApplyMatrix3(m, u), ApplyMatrix3(m, v))
    ensures ApplyMatrix3(m, Scale(k, u)) == Scale(k, ApplyMatrix3(m, u))
  {
    DotAdd(m.x, u, v);
    DotAdd(m.y, u, v);
    DotAdd(m.z, u, v);
    DotScale(m.x, u, k);
    DotScale(m.y, u, k);
    DotScale(m.z, u, k);
  }

  lemma DotAdd(r: Vec3, u: Vec3, v: Vec3)
    ensures Dot(r, Add(u, v)) == Dot(r, u) + Dot(r, v)
  {
    assert r.x * (u.x + v.x) == r.x * u.x + r.x * v.x;
    assert r.y * (u.y + v.y) == r.y * u.y + r.y * v.y;
    assert r.z * (u.z + v.z) == r.z * u.z + r.z * v.z;
  }

  lemma DotScale(r: Vec3, u: Vec3, k: real)
    ensures Dot(r, Scale(k, u)) == k * Dot(r, u)
  {
    assert r.x * (k * u.x) == k * (r.x * u.x);
    assert r.y * (k * u.y) == k * (r.y * u.y);
    assert r.z * (k * u.z) == k * (r.z * u.z);
  }

  /** Applying `b` and then `a` is the same as applying the product `a * b`. */
  lemma MatrixCompose(a: Matrix3, b: Matrix3, v: Vec3)
    ensures ApplyMatrix3(a, ApplyMatrix3(b, v)) == ApplyMatrix3(Mul(a, b), v)
  {
    RowCompose(a.x, b, v);
    RowCompose(a.y, b, v);
    RowCompose(a.z, b, v);
  }

  /** One row of the product: dotting `r` with `b v` equals dotting the row
      `r b` with `v`. */
  lemma RowCompose(r: Vec3, b: Matrix3, v: Vec3)
    ensures Dot(r, ApplyMatrix3(b, v))
         == Dot(Vec3(Dot(r, Column(b, 0)), Dot(r, Column(b, 1)), Dot(r, Column(b, 2))), v)
  {
    var bv := ApplyMatrix3(b, v);
    Spread(r.x, b.x, v);
    Spread(r.y, b.y, v);
    Spread(r.z, b.z, v);
    Gather(r.x * b.x.x, r.y * b.y.x, r.z * b.z.x, v.x);
    Gather(r.x * b.x.y, r.y * b.y.y, r.z * b.z.y, v.y);
    Gather(r.x * b.x.z, r.y * b.y.z, r.z * b.z.z, v.z);
  }

  /** `k (row . v)` spread over the three products. */
  lemma Spread(k: real, row: Vec3, v: Vec3)
    ensures k * Dot(row, v) == (k * row.x) * v.x + (k * row.y) * v.y + (k * row.z) * v.z
  {
    assert k * (row.x * v.x) == (k * row.x) * v.x;
    assert k * (row.y * v.y) == (k * row.y) * v.y;
    assert k * (row.z * v.z) == (k * row.z) * v.z;
  }

  lemma Gather(p: real, q: real, s: real, c: real)
    ensures (p + q + s) * c == p * c + q * c + s * c
  {
  }

  /** Placing in `inner` and then in `outer` equals placing in their composition. */
  lemma FrameCompose(outer: CFrame, inner: CFrame, v: Vec3)
    ensures ApplyCFrame(ApplyCFrame(v, inner), outer) == ApplyCFrame(v, Compose(outer, inner))
  {
    MatrixLinear(outer.orientation, ApplyMatrix3(inner.orientation, v), inner.position, 1.0);
    MatrixCompose(outer.orientation, inner.orientation, v);
  }

  /** A frame with identity orientation only translates. */
  lemma TranslationOnly(v: Vec3, p: Vec3)
    ensures ApplyCFrame(v, CFrame(p, Identity())) == Add(v, p)
  {
  }

  /** A quarter turn about z maps the unit x axis to the unit y axis and keeps z. */
  lemma QuarterTurnExample()
    ensures ApplyMatrix3(QuarterTurnZ(), Vec3(1.0, 0.0, 0.0)) == Vec3(0.0, 1.0, 0.0)
    ensures ApplyMatrix3(QuarterTurnZ(), Vec3(0.0, 0.0, 1.0)) == Vec3(0.0, 0.0, 1.0)
  {
    UnitAxisPicksColumn(QuarterTurnZ());
  }

  /** Applying a matrix to a unit axis vector selects that column. */
  lemma UnitAxisPicksColumn(m: Matrix3)
    ensures ApplyMatrix3(m, Vec3(1.0, 0.0, 0.0)) == Column(m, 0)
    ensures ApplyMatrix3(m, Vec3(0.0, 1.0, 0.0)) == Column(m, 1)
    ensures ApplyMatrix3(m, Vec3(0.0, 0.0, 1.0)) == Column(m, 2)
  {
  }
}

=== FILE: primitives.dfy ===
/** The fixed-topology primitive builders: box, wedge, corner wedge and the
    capped cylinder. Each returns a local mesh centred on the origin. */
module Primitives {
  import opened Numeric
  import opened MeshBase
  import Cardinality

  /** `v` is a corner of the box of extent `size` centred at the origin. */
  predicate IsBoxCorner(v: Vec3, size: Vec3) {
    && (v.x == size.x / 2.0 || v.x == -(size.x / 2.0))
    && (v.y == size.y / 2.0 || v.y == -(size.y / 2.0))
    && (v.z == size.z / 2.0 || v.z == -(size.z / 2.0))
  }

  predicate WithinBox(v: Vec3, size: Vec3) {
    && -(size.x / 2.0) <= v.x <= size.x / 2.0
    && -(size.y / 2.0) <= v.y <= size.y / 2.0
    && -(size.z / 2.0) <= v.z <= size.z / 2.0
  }

  predicate NonZero(size: Vec3) {
    size.x != 0.0 && size.y != 0.0 && size.z != 0.0
  }

  predicate AllDistinct(vs: seq<Vec3>) {
    forall i, j | 0 <= i < j < |vs| :: vs[i] != vs[j]
  }

  /** Face `t` walks from `x` to `y` along one of its sides. */
  predicate Traverses(t: Tri, x: nat, y: nat) {
    (t.a == x && t.b == y) || (t.b == x && t.c == y) || (t.c == x && t.a == y)
  }

  /** Consistent winding: no directed side is walked by two different faces. */
  ghost predicate ConsistentlyWound(fs: seq<Tri>) {
    forall i, j, x: nat, y: nat | 0 <= i < |fs| && 0 <= j < |fs| && i != j ::
      !(Traverses(fs[i], x, y) && Traverses(fs[j], x, y))
  }

  // ---------------------------------------------------------------- box

  function CubeFaces(): seq<Tri> {
    [Tri(0, 1, 2), Tri(0, 2, 3), Tri(4, 5, 6), Tri(4, 6, 7),
     Tri(0, 1, 5), Tri(0, 5, 4), Tri(1, 2, 6), Tri(1, 6, 5),
     Tri(2, 3, 7), Tri(2, 7, 6), Tri(3, 0, 4), Tri(3, 4, 7)]
  }

  /** The 12 box edges and the 6 face diagonals, in ascending order. */
  function CubeEdges(): seq<Edge> {
    [Edge(0, 1), Edge(0, 2), Edge(0, 3), Edge(0, 4), Edge(0, 5), Edge(1, 2),
     Edge(1, 5), Edge(1, 6), Edge(2, 3), Edge(2, 6), Edge(2, 7), Edge(3, 4),
     Edge(3, 7), Edge(4, 5), Edge(4, 6), Edge(4, 7), Edge(5, 6), Edge(6, 7)]
  }

  /** For each listed edge, the two faces that share it. */
  function CubeSharing(): seq<(nat, nat)> {
    [(0, 4), (0, 1), (1, 10), (5, 10), (4, 5), (0, 6),
     (4, 7), (6, 7), (1, 8), (6, 9), (8, 9), (10, 11),
     (8, 11), (2, 5), (2, 3), (3, 11), (2, 7), (3, 9)]
  }

  /** The facts about the fixed cube table, checked entry by entry. */
  lemma CubeTable()
    ensures IndexedBelow(CubeFaces(), 8) && AllNonDegenerate(CubeFaces())
    ensures NoRepeatedFace(CubeFaces())
    ensures Edges(CubeFaces()) <= set e | e in CubeEdges()
    ensures StrictlyAscending(CubeEdges())
    ensures |CubeSharing()| == |CubeEdges()|
    ensures forall p | 0 <= p < |CubeEdges()| ::
      UsedExactlyBy(CubeFaces(), CubeEdges()[p], CubeSharing()[p].0, CubeSharing()[p].1)
  {
    CubeFacesProper();
    CubeNoRepeat();
    CubeEdgesListed();
    CubeEdgesAscending();
    CubeSharingExact();
  }

  lemma CubeFacesProper()
    ensures IndexedBelow(CubeFaces(), 8) && AllNonDegenerate(CubeFaces())
  {
    var fs := CubeFaces();
    forall i | 0 <= i < |fs| ensures InRange(fs[i], 8) && NonDegenerate(fs[i]) {
      SmallIndex(i);
    }
  }

  lemma CubeNoRepeat()
    ensures NoRepeatedFace(CubeFaces())
  {
    var fs := CubeFaces();
    forall i, j | 0 <= i < |fs| && 0 <= j < |fs| && i != j ensures !SameCorners(fs[i], fs[j]) {
      SmallIndex(i);
      SmallIndex(j);
    }
  }

  lemma CubeEdgesListed()
    ensures Edges(CubeFaces()) <= set e | e in CubeEdges()
  {
    var fs := CubeFaces();
    var es := CubeEdges();
    forall e | e in Edges(fs) ensures e in es {
      var t :| t in fs && e in FaceEdges(t);
      var k :| 0 <= k < |fs| && fs[k] == t;
      SmallIndex(k);
    }
  }

  lemma CubeEdgesAscending()
    ensures StrictlyAscending(CubeEdges())
  {
    var es := CubeEdges();
    forall i | 0 <= i < |es| - 1 ensures EdgeBefore(es[i], es[i + 1]) {
      SmallIndex(i);
    }
  }

  lemma CubeSharingExact()
    ensures |CubeSharing()| == |CubeEdges()|
    ensures forall p | 0 <= p < |CubeEdges()| ::
      UsedExactlyBy(CubeFaces(), CubeEdges()[p], CubeSharing()[p].0, CubeSharing()[p].1)
  {
    var fs := CubeFaces();
    var es := CubeEdges();
    var sh := CubeSharing();
    forall p, k | 0 <= p < |es| && 0 <= k < |fs|
      ensures es[p] in FaceEdges(fs[k]) <==> (k == sh[p].0 || k == sh[p].1)
    {
      SmallIndex(p);
      SmallIndex(k);
    }
    forall p | 0 <= p < |es| ensures sh[p].0 < sh[p].1 < |fs| {
      SmallIndex(p);
    }
  }

  /** An axis-aligned box: the 8 corners and 2 triangles per side. */
  function Cube(size: Vec3): (m: Mesh)
    ensures |m.vertices| == 8 && |m.faces| == 12
    ensures WellIndexed(m) && AllNonDegenerate(m.faces)
    ensures forall v | v in m.vertices :: IsBoxCorner(v, size)
    ensures NonZero(size) ==> AllDistinct(m.vertices)
  {
    var sx := size.x / 2.0;
    var sy := size.y / 2.0;
    var sz := size.z / 2.0;
    var vertices := [
      Vec3(-sx, -sy, -sz), Vec3(sx, -sy, -sz), Vec3(sx, sy, -sz), Vec3(-sx, sy, -sz),
      Vec3(-sx, -sy, sz), Vec3(sx, -sy, sz), Vec3(sx, sy, sz), Vec3(-sx, sy, sz)];
    CubeTable();
    Mesh(vertices, CubeFaces())
  }

  /** The box is a closed surface: its 18 edges are each shared by exactly two
      triangles, and no triangle is repeated. */
  lemma CubeClosed(size: Vec3)
    ensures |Edges(Cube(size).faces)| == 18
    ensures Edges(Cube(size).faces) == set e | e in CubeEdges()
    ensures EveryEdgeTwice(Cube(size).faces)
    ensures NoRepeatedFace(Cube(size).faces)
  {
    CubeTable();
    ClosedFromTable(CubeFaces(), CubeEdges(), CubeSharing());
  }

  /** For a box of non-negative extent every vertex lies inside the box. */
  lemma CubeWithinBox(size: Vec3)
    requires size.x >= 0.0 && size.y >= 0.0 && size.z >= 0.0
    ensures forall v | v in Cube(size).vertices :: WithinBox(v, size)
  {
  }

  /** The box table does not wind consistently: faces 0 and 4 both walk the
      side from vertex 0 to vertex 1. */
  lemma CubeWindingInconsistent(size: Vec3)
    ensures !ConsistentlyWound(Cube(size).faces)
  {
    var fs := Cube(size).faces;
    assert Traverses(fs[0], 0, 1) && Traverses(fs[4], 0, 1);
  }

  // -------------------------------------------------------------- wedge

  function WedgeFaces(): seq<Tri> {
    [Tri(0, 1, 2), Tri(0, 2, 3), Tri(0, 1, 4), Tri(1, 5, 4),
     Tri(3, 2, 5), Tri(3, 5, 4), Tri(0, 3, 4), Tri(1, 2, 5)]
  }

  function WedgeEdges(): seq<Edge> {
    [Edge(0, 1), Edge(0, 2), Edge(0, 3), Edge(0, 4), Edge(1, 2), Edge(1, 4),
     Edge(1, 5), Edge(2, 3), Edge(2, 5), Edge(3, 4), Edge(3, 5), Edge(4, 5)]
  }

  /** For each listed edge, the two faces that share it. */
  function WedgeSharing(): seq<(nat, nat)> {
    [(0, 2), (0, 1), (1, 6), (2, 6), (0, 7), (2, 3),
     (3, 7), (1, 4), (4, 7), (5, 6), (4, 5), (3, 5)]
  }

  /** The facts about the fixed wedge table, checked entry by entry. */
  lemma WedgeTable()
    ensures IndexedBelow(WedgeFaces(), 6) && AllNonDegenerate(WedgeFaces())
    ensures NoRepeatedFace(WedgeFaces())
    ensures Edges(WedgeFaces()) <= set e | e in WedgeEdges()
    ensures StrictlyAscending(WedgeEdges())
    ensures |WedgeSharing()| == |WedgeEdges()|
    ensures forall p | 0 <= p < |WedgeEdges()| ::
      UsedExactlyBy(WedgeFaces(), WedgeEdges()[p], WedgeSharing()[p].0, WedgeSharing()[p].1)
  {
    WedgeFacesProper();
    WedgeNoRepeat();
    WedgeEdgesListed();
    WedgeEdgesAscending();
    WedgeSharingExact();
  }

  lemma WedgeFacesProper()
    ensures IndexedBelow(WedgeFaces(), 6) && AllNonDegenerate(WedgeFaces())
  {
    var fs := WedgeFaces();
    forall i | 0 <= i < |fs| ensures InRange(fs[i], 6) && NonDegenerate(fs[i]) {
      SmallIndex(i);
    }
  }

  lemma WedgeNoRepeat()
    ensures NoRepeatedFace(WedgeFaces())
  {
    var fs := WedgeFaces();
    forall i, j | 0 <= i < |fs| && 0 <= j < |fs| && i != j ensures !SameCorners(fs[i], fs[j]) {
      SmallIndex(i);
      SmallIndex(j);
    }
  }

  lemma WedgeEdgesListed()
    ensures Edges(WedgeFaces()) <= set e | e in WedgeEdges()
  {
    var fs := WedgeFaces();
    var es := WedgeEdges();
    forall e | e in Edges(fs) ensures e in es {
      var t :| t in fs && e in FaceEdges(t);
      var k :| 0 <= k < |fs| && fs[k] == t;
      SmallIndex(k);
    }
  }

  lemma WedgeEdgesAscending()
    ensures StrictlyAscending(WedgeEdges())
  {
    var es := WedgeEdges();
    forall i | 0 <= i < |es| - 1 ensures EdgeBefore(es[i], es[i + 1]) {
      SmallIndex(i);
    }
  }

  lemma WedgeSharingExact()
    ensures |WedgeSharing()| == |WedgeEdges()|
    ensures forall p | 0 <= p < |WedgeEdges()| ::
      UsedExactlyBy(WedgeFaces(), WedgeEdges()[p], WedgeSharing()[p].0, WedgeSharing()[p].1)
  {
    var fs := WedgeFaces();
    var es := WedgeEdges();
    var sh := WedgeSharing();
    forall p, k | 0 <= p < |es| && 0 <= k < |fs|
      ensures es[p] in FaceEdges(fs[k]) <==> (k == sh[p].0 || k == sh[p].1)
    {
      SmallIndex(p);
      SmallIndex(k);
    }
    forall p | 0 <= p < |es| ensures sh[p].0 < sh[p].1 < |fs| {
      SmallIndex(p);
    }
  }

  /** A right triangular prism: the full bottom of the box (y = -size.y/2)
      and a ridge along the top edge at z = +size.z/2. */
  function Wedge(size: Vec3): (m: Mesh)
    ensures |m.vertices| == 6 && |m.faces| == 8
    ensures WellIndexed(m) && AllNonDegenerate(m.faces)
    ensures forall v | v in m.vertices :: IsBoxCorner(v, size)
    ensures NonZero(size) ==> AllDistinct(m.vertices)
    ensures forall i | 0 <= i < 4 :: m.vertices[i].y == -(size.y / 2.0)
    ensures forall i | 4 <= i < 6 :: m.vertices[i].y == size.y / 2.0 && m.vertices[i].z == size.z / 2.0
  {
    var sx := size.x / 2.0;
    var sy := size.y / 2.0;
    var sz := size.z / 2.0;
    var vertices := [
      Vec3(-sx, -sy, -sz), Vec3(sx, -sy, -sz), Vec3(sx, -sy, sz),
      Vec3(-sx, -sy, sz), Vec3(-sx, sy, sz), Vec3(sx, sy, sz)];
    WedgeTable();
    Mesh(vertices, WedgeFaces())
  }

  /** The wedge is closed: its 12 edges are each shared by exactly two faces. */
  lemma WedgeClosed(size: Vec3)
    ensures |Edges(Wedge(size).faces)| == 12
    ensures Edges(Wedge(size).faces) == set e | e in WedgeEdges()
    ensures EveryEdgeTwice(Wedge(size).faces)
    ensures NoRepeatedFace(Wedge(size).faces)
  {
    WedgeTable();
    ClosedFromTable(WedgeFaces(), WedgeEdges(), WedgeSharing());
  }

  /** The wedge table does not wind consistently either: faces 0 and 2 both
      walk the side from vertex 0 to vertex 1. */
  lemma WedgeWindingInconsistent(size: Vec3)
    ensures !ConsistentlyWound(Wedge(size).faces)
  {
    var fs := Wedge(size).faces;
    assert Traverses(fs[0], 0, 1) && Traverses(fs[2], 0, 1);
  }

  /** The corner wedge has no geometry of its own: it is the wedge. */
  function CornerWedge(size: Vec3): (m: Mesh)
    ensures m == Wedge(size)
    ensures |m.vertices| == 6 && |m.faces| == 8 && WellIndexed(m)
  {
    Wedge(size)
  }

  // ----------------------------------------------------------- cylinder

  /** Ring vertex `k` of a cylinder with `steps` segments. It belongs to
      segment `k / 2` at angle 2*pi*(k/2)/steps, on the -x end when `k` is
      even and on the +x end when `k` is odd. */
  function RingVertex(lib: FloatLib, size: Vec3, steps: nat, k: nat): Vec3
    requires k < 2 * steps
  {
    var theta := RingAngle(lib, steps, k / 2);
    var xHalf := size.x / 2.0;
    Vec3(if k % 2 == 0 then -xHalf else xHalf,
         size.y / 2.0 * lib.cos(theta),
         size.z / 2.0 * lib.sin(theta))
  }

  /** The angle of segment `i`: 2*pi*i/steps. */
  function RingAngle(lib: FloatLib, steps: nat, i: nat): real
    requires i < steps
  {
    2.0 * lib.pi * (i as real) / (steps as real)
  }

  /** Face `j` (of 4) of segment `i`: two side triangles joining ring `i` to
      ring `(i + 1) % steps`, then one triangle on each end cap, which uses
      the cap centre at index `2 * steps` or `2 * steps + 1`. */
  function SegmentFace(steps: nat, i: nat, j: nat): Tri
    requires i < steps && j < 4
  {
    var next := (i + 1) % steps;
    var capLow := 2 * steps;
    if j == 0 then Tri(i * 2, next * 2, next * 2 + 1)
    else if j == 1 then Tri(i * 2, next * 2 + 1, i * 2 + 1)
    else if j == 2 then Tri(i * 2, next * 2, capLow)
    else Tri(i * 2 + 1, next * 2 + 1, capLow + 1)
  }

  /** The ring vertices (two per segment) followed by the two cap centres. */
  function CylinderVertices(lib: FloatLib, size: Vec3, steps: nat): (vs: seq<Vec3>)
    ensures |vs| == 2 * steps + 2
    ensures forall i | 0 <= i < steps ::
      && vs[2 * i].x == -(size.x / 2.0)
      && vs[2 * i + 1].x == size.x / 2.0
      && vs[2 * i].y == vs[2 * i + 1].y
      && vs[2 * i].z == vs[2 * i + 1].z
    ensures vs[2 * steps] == Vec3(-(size.x / 2.0), 0.0, 0.0)
    ensures vs[2 * steps + 1] == Vec3(size.x / 2.0, 0.0, 0.0)
  {
    var xHalf := size.x / 2.0;
    var ring := seq(2 * steps, k requires 0 <= k < 2 * steps => RingVertex(lib, size, steps, k));
    var vs := ring + [Vec3(-xHalf, 0.0, 0.0), Vec3(xHalf, 0.0, 0.0)];
    forall i | 0 <= i < steps
      ensures vs[2 * i].x == -xHalf && vs[2 * i + 1].x == xHalf
      ensures vs[2 * i].y == vs[2 * i + 1].y && vs[2 * i].z == vs[2 * i + 1].z
    {
      assert vs[2 * i] == RingVertex(lib, size, steps, 2 * i);
      assert vs[2 * i + 1] == RingVertex(lib, size, steps, 2 * i + 1);
      assert (2 * i + 1) / 2 == i && (2 * i) / 2 == i;
      assert (2 * i) % 2 == 0 && (2 * i + 1) % 2 == 1;
      var theta := RingAngle(lib, steps, i);
      assert vs[2 * i].y == size.y / 2.0 * lib.cos(theta) == vs[2 * i + 1].y;
      assert vs[2 * i].z == size.z / 2.0 * lib.sin(theta) == vs[2 * i + 1].z;
    }
    vs
  }

  /** Four faces per segment, segment by segment. */
  function CylinderFaces(steps: nat): (fs: seq<Tri>)
    ensures |fs| == 4 * steps
    ensures IndexedBelow(fs, 2 * steps + 2)
    ensures steps >= 2 ==> AllNonDegenerate(fs)
  {
    var fs := seq(4 * steps, k requires 0 <= k < 4 * steps => SegmentFace(steps, k / 4, k % 4));
    forall k | 0 <= k < 4 * steps
      ensures InRange(fs[k], 2 * steps + 2)
      ensures steps >= 2 ==> NonDegenerate(fs[k])
    {
      SegmentFaceProper(steps, k / 4, k % 4);
    }
    fs
  }

  /** A capped prism with `steps` segments around the x axis, spanning
      `size.x` along it; the ring is the ellipse of radii size.y/2, size.z/2. */
  function Cylinder(lib: FloatLib, size: Vec3, steps: nat): (m: Mesh)
    ensures |m.vertices| == 2 * steps + 2
    ensures |m.faces| == 4 * steps
    ensures WellIndexed(m)
    ensures steps >= 2 ==> AllNonDegenerate(m.faces)
  {
    Mesh(CylinderVertices(lib, size, steps), CylinderFaces(steps))
  }

  /** Each segment's two cap triangles lie flat on their own end: every
      corner of face 4i+2 is at x = -size.x/2 and it fans to the centre of
      that end, and face 4i+3 does the same at x = +size.x/2. */
  lemma CylinderCapsFlat(lib: FloatLib, size: Vec3, steps: nat, i: nat)
    requires i < steps
    ensures var m := Cylinder(lib, size, steps);
      var lo, hi := m.faces[4 * i + 2], m.faces[4 * i + 3];
      && m.vertices[lo.a].x == -(size.x / 2.0)
      && m.vertices[lo.b].x == -(size.x / 2.0)
      && m.vertices[lo.c] == Vec3(-(size.x / 2.0), 0.0, 0.0)
      && m.vertices[hi.a].x == size.x / 2.0
      && m.vertices[hi.b].x == size.x / 2.0
      && m.vertices[hi.c] == Vec3(size.x / 2.0, 0.0, 0.0)
  {
    var n := Succ(steps, i);
    SegmentCaps(steps, i);
    CylinderFaceAt(steps, i, 2);
    CylinderFaceAt(steps, i, 3);
    CylinderEnds(lib, size, steps, i);
    CylinderEnds(lib, size, steps, n);
  }

  /** The cap triangles of segment `i` join ring `i` and the next ring to
      the cap centres. */
  lemma SegmentCaps(steps: nat, i: nat)
    requires i < steps
    ensures Succ(steps, i) < steps
    ensures SegmentFace(steps, i, 2) == Tri(2 * i, 2 * Succ(steps, i), 2 * steps)
    ensures SegmentFace(steps, i, 3) == Tri(2 * i + 1, 2 * Succ(steps, i) + 1, 2 * steps + 1)
  {
    SuccIsWrap(steps, i);
  }

  /** Ring pair `k` has one vertex on each end. */
  lemma CylinderEnds(lib: FloatLib, size: Vec3, steps: nat, k: nat)
    requires k < steps
    ensures var vs := Cylinder(lib, size, steps).vertices;
      vs[2 * k].x == -(size.x / 2.0) && vs[2 * k + 1].x == size.x / 2.0
  {
  }

  lemma SegmentFaceProper(steps: nat, i: nat, j: nat)
    requires i < steps && j < 4
    ensures InRange(SegmentFace(steps, i, j), 2 * steps + 2)
    ensures steps >= 2 ==> NonDegenerate(SegmentFace(steps, i, j))
  {
    var next := (i + 1) % steps;
    assert next < steps;
    assert steps >= 2 ==> next != i by {
      if steps >= 2 && i + 1 < steps {
        assert next == i + 1;
      } else if steps >= 2 {
        assert i + 1 == steps && next == 0;
      }
    }
  }

  // ------------------------------------------------- cylinder closedness

  /** The segment after `i` going round: `(i + 1) % steps`, spelled out. */
  function Succ(steps: nat, i: nat): nat
    requires i < steps
  {
    if i + 1 == steps then 0 else i + 1
  }

  /** The segment before `i` going round. */
  function Pred(steps: nat, i: nat): nat
    requires i < steps
  {
    if i == 0 then steps - 1 else i - 1
  }

  lemma SuccIsWrap(steps: nat, i: nat)
    requires i < steps
    ensures (i + 1) % steps == Succ(steps, i) < steps
  {
  }

  lemma SuccPred(steps: nat, i: nat, p: nat)
    requires i < steps && p < steps
    ensures Pred(steps, i) < steps
    ensures Succ(steps, p) == i <==> p == Pred(steps, i)
  {
  }

  /** The six edges segment `i` owns: the low ring side, the high ring
      side, the diagonal of the side quad, the rung joining the ring pair,
      and the two spokes to the cap centres. */
  function CylinderEdge(steps: nat, i: nat, kind: nat): Edge
    requires i < steps && kind < 6
  {
    var n := Succ(steps, i);
    if kind == 0 then EdgeKey(2 * i, 2 * n)
    else if kind == 1 then EdgeKey(2 * i + 1, 2 * n + 1)
    else if kind == 2 then EdgeKey(2 * i, 2 * n + 1)
    else if kind == 3 then EdgeKey(2 * i, 2 * i + 1)
    else if kind == 4 then EdgeKey(2 * i, 2 * steps)
    else EdgeKey(2 * i + 1, 2 * steps + 1)
  }

  /** With three or more segments no edge is owned twice. */
  lemma CylinderEdgeInjective(steps: nat, i: nat, kind: nat, i2: nat, kind2: nat)
    requires steps >= 3 && i < steps && kind < 6 && i2 < steps && kind2 < 6
    requires CylinderEdge(steps, i, kind) == CylinderEdge(steps, i2, kind2)
    ensures i == i2 && kind == kind2
  {
  }

  /** The face at position 4i+j is face j of segment i. */
  lemma CylinderFaceAt(steps: nat, i: nat, j: nat)
    requires i < steps && j < 4
    ensures 4 * i + j < |CylinderFaces(steps)|
    ensures CylinderFaces(steps)[4 * i + j] == SegmentFace(steps, i, j)
  {
    assert (4 * i + j) / 4 == i && (4 * i + j) % 4 == j;
  }

  /** The edges of face j of segment i, by owner. */
  lemma SegmentFaceEdges(steps: nat, i: nat, j: nat)
    requires i < steps && j < 4
    ensures var n := Succ(steps, i);
      FaceEdges(SegmentFace(steps, i, j)) ==
        if j == 0 then {CylinderEdge(steps, i, 0), CylinderEdge(steps, n, 3), CylinderEdge(steps, i, 2)}
        else if j == 1 then {CylinderEdge(steps, i, 2), CylinderEdge(steps, i, 1), CylinderEdge(steps, i, 3)}
        else if j == 2 then {CylinderEdge(steps, i, 0), CylinderEdge(steps, n, 4), CylinderEdge(steps, i, 4)}
        else {CylinderEdge(steps, i, 1), CylinderEdge(steps, n, 5), CylinderEdge(steps, i, 5)}
  {
    SuccIsWrap(steps, i);
  }

  /** The smaller position first. */
  function Ordered(x: nat, y: nat): (nat, nat) {
    if x < y then (x, y) else (y, x)
  }

  /** The two faces that use edge `kind` of segment `i`. The rung and the
      spokes are shared with the previous segment, whose side or cap
      triangle reaches forward to ring `i`. */
  function EdgeUsers(steps: nat, i: nat, kind: nat): (nat, nat)
    requires i < steps && kind < 6
  {
    var p := Pred(steps, i);
    if kind == 0 then (4 * i, 4 * i + 2)
    else if kind == 1 then (4 * i + 1, 4 * i + 3)
    else if kind == 2 then (4 * i, 4 * i + 1)
    else if kind == 3 then Ordered(4 * i + 1, 4 * p)
    else if kind == 4 then Ordered(4 * i + 2, 4 * p + 2)
    else Ordered(4 * i + 3, 4 * p + 3)
  }

  /** Face j2 of segment i2 has the edge that segment i owns as `kind`,
      read off its three owners. */
  predicate OwnedBy(steps: nat, i2: nat, j2: nat, i: nat, kind: nat)
    requires i2 < steps
  {
    var n2 := Succ(steps, i2);
    if j2 == 0 then (i, kind) == (i2, 0) || (i, kind) == (n2, 3) || (i, kind) == (i2, 2)
    else if j2 == 1 then (i, kind) == (i2, 2) || (i, kind) == (i2, 1) || (i, kind) == (i2, 3)
    else if j2 == 2 then (i, kind) == (i2, 0) || (i, kind) == (n2, 4) || (i, kind) == (i2, 4)
    else (i, kind) == (i2, 1) || (i, kind) == (n2, 5) || (i, kind) == (i2, 5)
  }

  /** A set of three owned edges holds an owned edge exactly when its owner
      is one of the three. */
  lemma OwnedTriple(steps: nat, es: set<Edge>, x0: nat, y0: nat, x1: nat, y1: nat, x2: nat, y2: nat, i: nat, kind: nat)
    requires steps >= 3 && i < steps && kind < 6
    requires x0 < steps && x1 < steps && x2 < steps && y0 < 6 && y1 < 6 && y2 < 6
    requires es == {CylinderEdge(steps, x0, y0), CylinderEdge(steps, x1, y1), CylinderEdge(steps, x2, y2)}
    ensures CylinderEdge(steps, i, kind) in es <==> (i, kind) == (x0, y0) || (i, kind) == (x1, y1) || (i, kind) == (x2, y2)
  {
    var e := CylinderEdge(steps, i, kind);
    if e in es {
      if e == CylinderEdge(steps, x0, y0) {
        CylinderEdgeInjective(steps, i, kind, x0, y0);
      } else if e == CylinderEdge(steps, x1, y1) {
        CylinderEdgeInjective(steps, i, kind, x1, y1);
      } else {
        CylinderEdgeInjective(steps, i, kind, x2, y2);
      }
    }
  }

  lemma SegmentFaceHasEdge(steps: nat, i2: nat, j2: nat, i: nat, kind: nat)
    requires steps >= 3 && i2 < steps && j2 < 4 && i < steps && kind < 6
    ensures CylinderEdge(steps, i, kind) in FaceEdges(SegmentFace(steps, i2, j2)) <==> OwnedBy(steps, i2, j2, i, kind)
  {
    SegmentFaceEdges(steps, i2, j2);
    var t := FaceEdges(SegmentFace(steps, i2, j2));
    var n2 := Succ(steps, i2);
    if j2 == 0 {
      OwnedTriple(steps, t, i2, 0, n2, 3, i2, 2, i, kind);
    } else if j2 == 1 {
      OwnedTriple(steps, t, i2, 2, i2, 1, i2, 3, i, kind);
    } else if j2 == 2 {
      OwnedTriple(steps, t, i2, 0, n2, 4, i2, 4, i, kind);
    } else {
      OwnedTriple(steps, t, i2, 1, n2, 5, i2, 5, i, kind);
    }
  }

  /** The owners, counted by position: face 4*i2 + j2 is one of the two
      users of the edge. */
  lemma OwnedByUsers(steps: nat, i2: nat, j2: nat, i: nat, kind: nat)
    requires steps >= 3 && i2 < steps && j2 < 4 && i < steps && kind < 6
    ensures OwnedBy(steps, i2, j2, i, kind) <==>
      (4 * i2 + j2 == EdgeUsers(steps, i, kind).0 || 4 * i2 + j2 == EdgeUsers(steps, i, kind).1)
  {
    SuccPred(steps, i, i2);
  }

  /** Exactly the two faces `EdgeUsers` names use each owned edge. */
  lemma CylinderEdgeUsedBy(steps: nat, i: nat, kind: nat)
    requires steps >= 3 && i < steps && kind < 6
    ensures UsedExactlyBy(CylinderFaces(steps), CylinderEdge(steps, i, kind),
                          EdgeUsers(steps, i, kind).0, EdgeUsers(steps, i, kind).1)
  {
    var fs := CylinderFaces(steps);
    var e := CylinderEdge(steps, i, kind);
    var (f, g) := EdgeUsers(steps, i, kind);
    SuccPred(steps, i, Pred(steps, i));
    forall k | 0 <= k < |fs| ensures e in FaceEdges(fs[k]) <==> (k == f || k == g) {
      var i2, j2 := k / 4, k % 4;
      assert k == 4 * i2 + j2;
      CylinderFaceAt(steps, i2, j2);
      SegmentFaceHasEdge(steps, i2, j2, i, kind);
      OwnedByUsers(steps, i2, j2, i, kind);
    }
  }

  /** Every edge of a face belongs to some segment. */
  lemma CylinderEdgeOwner(steps: nat, k: nat, e: Edge) returns (i: nat, kind: nat)
    requires k < |CylinderFaces(steps)| && e in FaceEdges(CylinderFaces(steps)[k])
    ensures i < steps && kind < 6 && e == CylinderEdge(steps, i, kind)
  {
    var i2, j2 := k / 4, k % 4;
    assert k == 4 * i2 + j2;
    CylinderFaceAt(steps, i2, j2);
    SegmentFaceEdges(steps, i2, j2);
    var n2 := Succ(steps, i2);
    if e == CylinderEdge(steps, i2, 0) { i, kind := i2, 0; }
    else if e == CylinderEdge(steps, i2, 1) { i, kind := i2, 1; }
    else if e == CylinderEdge(steps, i2, 2) { i, kind := i2, 2; }
    else if e == CylinderEdge(steps, i2, 3) { i, kind := i2, 3; }
    else if e == CylinderEdge(steps, i2, 4) { i, kind := i2, 4; }
    else if e == CylinderEdge(steps, i2, 5) { i, kind := i2, 5; }
    else if e == CylinderEdge(steps, n2, 3) { i, kind := n2, 3; }
    else if e == CylinderEdge(steps, n2, 4) { i, kind := n2, 4; }
    else { i, kind := n2, 5; }
  }

  /** The owned edges, six per segment. */
  function CylinderEdges(steps: nat): (es: seq<Edge>)
    ensures |es| == 6 * steps
    ensures forall i, kind | 0 <= i < steps && 0 <= kind < 6 :: es[6 * i + kind] == CylinderEdge(steps, i, kind)
  {
    var es := seq(6 * steps, p requires 0 <= p < 6 * steps => CylinderEdge(steps, p / 6, p % 6));
    forall i, kind | 0 <= i < steps && 0 <= kind < 6 ensures es[6 * i + kind] == CylinderEdge(steps, i, kind) {
      assert (6 * i + kind) / 6 == i && (6 * i + kind) % 6 == kind;
    }
    es
  }

  lemma CylinderEdgesDistinct(steps: nat)
    requires steps >= 3
    ensures var es := CylinderEdges(steps); forall p, q :: 0 <= p < q < |es| ==> es[p] != es[q]
  {
    var es := CylinderEdges(steps);
    forall p, q | 0 <= p < q < |es| ensures es[p] != es[q] {
      var i, kind, i2, kind2 := p / 6, p % 6, q / 6, q % 6;
      assert p == 6 * i + kind && q == 6 * i2 + kind2;
      if es[p] == es[q] {
        CylinderEdgeInjective(steps, i, kind, i2, kind2);
      }
    }
  }

  /** With three or more segments the cylinder is a closed surface with
      six edges per segment, each shared by exactly two faces. It is the
      wrap-around to ring `(i + 1) % steps` that closes the side: the last
      segment's quad and cap triangles reach back to ring 0. */
  lemma CylinderClosed(lib: FloatLib, size: Vec3, steps: nat)
    requires steps >= 3
    ensures |Edges(Cylinder(lib, size, steps).faces)| == 6 * steps
    ensures EveryEdgeTwice(Cylinder(lib, size, steps).faces)
  {
    var fs := CylinderFaces(steps);
    var es := CylinderEdges(steps);
    forall e | e in Edges(fs) ensures e in es && EdgeUses(fs, e) == 2 {
      var t :| t in fs && e in FaceEdges(t);
      var k :| 0 <= k < |fs| && fs[k] == t;
      var i, kind := CylinderEdgeOwner(steps, k, e);
      assert es[6 * i + kind] == e;
      CylinderEdgeUsedBy(steps, i, kind);
      UsesFromPair(fs, e, EdgeUsers(steps, i, kind).0, EdgeUsers(steps, i, kind).1, 0);
    }
    forall e | e in es ensures e in Edges(fs) {
      var p :| 0 <= p < |es| && es[p] == e;
      var i, kind := p / 6, p % 6;
      assert p == 6 * i + kind;
      CylinderEdgeUsedBy(steps, i, kind);
      var f := EdgeUsers(steps, i, kind).0;
      assert fs[f] in fs && e in FaceEdges(fs[f]);
    }
    assert Edges(fs) == set e | e in es;
    CylinderEdgesDistinct(steps);
    Cardinality.DistinctElements(es);
  }
}

=== FILE: refinement.dfy ===
/** The face list one subdivision pass produces, described without the
    incremental midpoint cache: every triangle (a, b, c) becomes four, using
    the midpoint vertex that a map assigns to each of its edges. The counting
    theorem of this module says how many edges the refined list has. */
module Refinement {
  import opened MeshBase

  /** Maps an undirected edge to the index of its midpoint vertex. */
  type Cache = map<Edge, nat>

  /** The midpoint the map records for edge `e`. */
  function MidOf(m: Cache, e: Edge): nat {
    if e in m then m[e] else 0
  }

  /** The midpoint the map records for the edge between `x` and `y`. */
  function Mid(m: Cache, x: nat, y: nat): nat {
    MidOf(m, EdgeKey(x, y))
  }

  /** The four triangles replacing `t`: three corner triangles, one at each of
      a, b, c, and the centre triangle on the three midpoints. */
  function Children(t: Tri, m: Cache): seq<Tri> {
    var ab := Mid(m, t.a, t.b);
    var bc := Mid(m, t.b, t.c);
    var ca := Mid(m, t.c, t.a);
    [Tri(t.a, ab, ca), Tri(t.b, bc, ab), Tri(t.c, ca, bc), Tri(ab, bc, ca)]
  }

  /** Every face replaced by its four children, in order: position 4k + j is
      child j of face k. */
  function Refine(fs: seq<Tri>, m: Cache): seq<Tri> {
    seq(4 * |fs|, i requires 0 <= i < 4 * |fs| => Children(fs[i / 4], m)[i % 4])
  }

  /** Midpoints are new vertices (at or above `n0`) and different edges get
      different midpoints. */
  ghost predicate FreshInjective(m: Cache, n0: nat) {
    && (forall e | e in m :: n0 <= m[e])
    && (forall d, e | d in m && e in m && m[d] == m[e] :: d == e)
  }

  /** The map gives exactly the edges of `fs` a midpoint, and the faces index
      only the `n0` old vertices. */
  ghost predicate MidpointMap(fs: seq<Tri>, n0: nat, m: Cache) {
    && IndexedBelow(fs, n0)
    && m.Keys == Edges(fs)
    && FreshInjective(m, n0)
  }

  // ------------------------------------------------------------ structure

  lemma RefineLength(fs: seq<Tri>, m: Cache)
    ensures |Refine(fs, m)| == 4 * |fs|
  {
  }

  lemma RefineIndex(fs: seq<Tri>, m: Cache, k: nat, j: nat)
    requires k < |fs| && j < 4
    ensures |Refine(fs, m)| == 4 * |fs|
    ensures Refine(fs, m)[4 * k + j] == Children(fs[k], m)[j]
  {
    assert (4 * k + j) / 4 == k && (4 * k + j) % 4 == j;
  }

  /** Refining only consults the map on the list's own edges. */
  lemma RefineStable(fs: seq<Tri>, m: Cache, m': Cache)
    requires Edges(fs) <= m.Keys
    requires forall e | e in m :: e in m' && m'[e] == m[e]
    ensures Refine(fs, m) == Refine(fs, m')
  {
    forall k | 0 <= k < |fs| ensures Children(fs[k], m) == Children(fs[k], m') {
      assert fs[k] in fs;
      assert FaceEdges(fs[k]) <= Edges(fs);
    }
  }

  /** Refining one more face appends its four children. */
  lemma RefineSnoc(fs: seq<Tri>, t: Tri, m: Cache)
    ensures Refine(fs + [t], m) == Refine(fs, m) + Children(t, m)
  {
    var l, r := Refine(fs + [t], m), Refine(fs, m) + Children(t, m);
    forall i | 0 <= i < |l| ensures l[i] == r[i] {
      if i < 4 * |fs| {
        assert (fs + [t])[i / 4] == fs[i / 4];
      } else {
        assert i / 4 == |fs| && i % 4 == i - 4 * |fs|;
      }
    }
  }

  /** The refined faces index the old vertices and the midpoints, nothing
      else. */
  lemma RefineIndexed(fs: seq<Tri>, m: Cache, n: nat)
    requires IndexedBelow(fs, n)
    requires Edges(fs) <= m.Keys
    requires forall e | e in m :: m[e] < n
    ensures IndexedBelow(Refine(fs, m), n)
  {
    RefineLength(fs, m);
    forall i | 0 <= i < |Refine(fs, m)| ensures InRange(Refine(fs, m)[i], n) {
      var k, j := i / 4, i % 4;
      RefineIndex(fs, m, k, j);
      assert i == 4 * k + j;
      assert fs[k] in fs;
      assert InRange(fs[k], n);
    }
  }

  // ------------------------------------------------------------ one face

  /** The two edges of `t` whose midpoints child `j` uses. */
  function ChildMids(t: Tri, j: nat): (Edge, Edge) {
    if j == 0 then (EdgeKey(t.a, t.b), EdgeKey(t.c, t.a))
    else if j == 1 then (EdgeKey(t.b, t.c), EdgeKey(t.a, t.b))
    else if j == 2 then (EdgeKey(t.c, t.a), EdgeKey(t.b, t.c))
    else (EdgeKey(t.a, t.b), EdgeKey(t.b, t.c))
  }

  /** The three edges of a proper triangle are different. */
  lemma ThreeEdges(t: Tri)
    requires NonDegenerate(t)
    ensures EdgeKey(t.a, t.b) != EdgeKey(t.b, t.c)
    ensures EdgeKey(t.b, t.c) != EdgeKey(t.c, t.a)
    ensures EdgeKey(t.c, t.a) != EdgeKey(t.a, t.b)
  {
    EndsOfKey(t.a, t.b);
    EndsOfKey(t.b, t.c);
    EndsOfKey(t.c, t.a);
  }

  /** The facts about one face that the per-face lemmas rely on. */
  ghost predicate Splittable(t: Tri, n0: nat, m: Cache) {
    && NonDegenerate(t)
    && InRange(t, n0)
    && FaceEdges(t) <= m.Keys
    && FreshInjective(m, n0)
  }

  lemma MidsFresh(t: Tri, n0: nat, m: Cache)
    requires Splittable(t, n0, m)
    ensures var ab, bc, ca := Mid(m, t.a, t.b), Mid(m, t.b, t.c), Mid(m, t.c, t.a);
      && n0 <= ab && n0 <= bc && n0 <= ca
      && ab != bc && bc != ca && ca != ab
  {
    ThreeEdges(t);
  }

  /** Each child is a proper triangle and no two children of one face share
      their corners. */
  lemma ChildrenProper(t: Tri, n0: nat, m: Cache)
    requires Splittable(t, n0, m)
    ensures forall j | 0 <= j < 4 :: NonDegenerate(Children(t, m)[j])
    ensures NoRepeatedFace(Children(t, m))
  {
    MidsFresh(t, n0, m);
  }

  /** Child `j` has the midpoints of two different edges of `t` as
      corners. */
  lemma ChildMidsOf(t: Tri, m: Cache, j: nat)
    requires NonDegenerate(t)
    requires j < 4
    ensures var (d, e) := ChildMids(t, j);
      && d in FaceEdges(t) && e in FaceEdges(t) && d != e
      && Has(Children(t, m)[j], MidOf(m, d))
      && Has(Children(t, m)[j], MidOf(m, e))
  {
    ThreeEdges(t);
  }

  /** Every corner of a child is a corner of its parent or the midpoint of
      one of the parent's edges. */
  lemma ChildCornerSources(t: Tri, m: Cache, j: nat)
    requires j < 4
    ensures forall x | Has(Children(t, m)[j], x) ::
      Has(t, x) || x == Mid(m, t.a, t.b) || x == Mid(m, t.b, t.c) || x == Mid(m, t.c, t.a)
  {
  }

  /** Children of two faces that are not built on the same corners never
      share their corners either: a child's two midpoints pin down two edges
      of its parent. */
  lemma ChildrenApart(s: Tri, t: Tri, n0: nat, m: Cache, i: nat, j: nat)
    requires Splittable(s, n0, m) && Splittable(t, n0, m)
    requires !SameCorners(s, t)
    requires i < 4 && j < 4
    ensures !SameCorners(Children(s, m)[i], Children(t, m)[j])
  {
    var cs, ct := Children(s, m)[i], Children(t, m)[j];
    ChildMidsOf(s, m, i);
    ChildCornerSources(t, m, j);
    var (d, e) := ChildMids(s, i);
    if SameCorners(cs, ct) {
      PinnedEdge(s, t, n0, m, cs, ct, d);
      PinnedEdge(s, t, n0, m, cs, ct, e);
      SharedEdgesSameCorners(s, t, d, e);
    }
  }

  /** A midpoint of an edge `d` of `s` that is a corner of a child `ct` of
      `t` makes `d` an edge of `t`. */
  lemma PinnedEdge(s: Tri, t: Tri, n0: nat, m: Cache, cs: Tri, ct: Tri, d: Edge)
    requires Splittable(s, n0, m) && Splittable(t, n0, m)
    requires d in FaceEdges(s)
    requires Has(cs, MidOf(m, d)) && SameCorners(cs, ct)
    requires forall x | Has(ct, x) ::
      Has(t, x) || x == Mid(m, t.a, t.b) || x == Mid(m, t.b, t.c) || x == Mid(m, t.c, t.a)
    ensures d in FaceEdges(t)
  {
    EndsOfKey(s.a, s.b);
    EndsOfKey(s.b, s.c);
    EndsOfKey(s.c, s.a);
    var x := MidOf(m, d);
    assert Has(ct, x);
    assert x == m[d] && n0 <= x;
    EndsOfKey(t.a, t.b);
    EndsOfKey(t.b, t.c);
    EndsOfKey(t.c, t.a);
  }

  // ------------------------------------------------------------ edge sets

  /** The six half edges of a split face: each old edge cut at its
      midpoint. */
  function Halves(t: Tri, m: Cache): set<Edge> {
    var ab, bc, ca := Mid(m, t.a, t.b), Mid(m, t.b, t.c), Mid(m, t.c, t.a);
    {EdgeKey(t.a, ab), EdgeKey(t.b, ab), EdgeKey(t.b, bc), EdgeKey(t.c, bc),
     EdgeKey(t.c, ca), EdgeKey(t.a, ca)}
  }

  /** The three new edges inside a split face, joining its midpoints. */
  function Inner(t: Tri, m: Cache): set<Edge> {
    var ab, bc, ca := Mid(m, t.a, t.b), Mid(m, t.b, t.c), Mid(m, t.c, t.a);
    {EdgeKey(ab, ca), EdgeKey(bc, ab), EdgeKey(ca, bc)}
  }

  lemma ChildEdges(t: Tri, m: Cache)
    ensures Edges(Children(t, m)) == Halves(t, m) + Inner(t, m)
  {
    var cs := Children(t, m);
    var ab, bc, ca := Mid(m, t.a, t.b), Mid(m, t.b, t.c), Mid(m, t.c, t.a);
    EdgeKeySymmetric(t.b, ab);
    EdgeKeySymmetric(t.c, bc);
    EdgeKeySymmetric(t.a, ca);
    assert cs[0] in cs && cs[1] in cs && cs[2] in cs && cs[3] in cs;
    forall e | e in Edges(cs) ensures e in Halves(t, m) + Inner(t, m) {
      var u :| u in cs && e in FaceEdges(u);
      EdgeKeySymmetric(ab, bc);
      EdgeKeySymmetric(bc, ca);
      EdgeKeySymmetric(ca, ab);
    }
    forall e | e in Halves(t, m) + Inner(t, m) ensures e in Edges(cs) {
      if e in FaceEdges(cs[0]) {
      } else if e in FaceEdges(cs[1]) {
      } else {
        assert e in FaceEdges(cs[2]);
      }
    }
  }

  /** The edge from one end of `e` (the high end when `upper`) to its
      midpoint. */
  function Half(m: Cache, e: Edge, upper: bool): Edge {
    Edge(if upper then e.hi else e.lo, MidOf(m, e))
  }

  /** The halves at the same end of every edge of `es`. */
  function HalfSet(es: set<Edge>, m: Cache, upper: bool): set<Edge> {
    set e | e in es :: Half(m, e, upper)
  }

  /** A split face's half edges are the low and high halves of its three
      edges. */
  lemma HalvesSplit(t: Tri, n0: nat, m: Cache)
    requires Splittable(t, n0, m)
    ensures Halves(t, m) == HalfSet(FaceEdges(t), m, false) + HalfSet(FaceEdges(t), m, true)
  {
    MidsFresh(t, n0, m);
    var k1, k2, k3 := EdgeKey(t.a, t.b), EdgeKey(t.b, t.c), EdgeKey(t.c, t.a);
    HalvesOfEdge(m, t.a, t.b, n0);
    HalvesOfEdge(m, t.b, t.c, n0);
    HalvesOfEdge(m, t.c, t.a, n0);
    ImageOfThree(m, k1, k2, k3);
  }

  /** Cutting the edge between `x` and `y` at its midpoint gives the edges
      from either end to the midpoint. */
  lemma HalvesOfEdge(m: Cache, x: nat, y: nat, n0: nat)
    requires x < n0 && y < n0
    requires EdgeKey(x, y) in m && n0 <= m[EdgeKey(x, y)]
    ensures {Half(m, EdgeKey(x, y), false), Half(m, EdgeKey(x, y), true)}
         == {EdgeKey(x, Mid(m, x, y)), EdgeKey(y, Mid(m, x, y))}
  {
  }

  lemma ImageOfThree(m: Cache, k1: Edge, k2: Edge, k3: Edge)
    ensures HalfSet({k1, k2, k3}, m, false) == {Half(m, k1, false), Half(m, k2, false), Half(m, k3, false)}
    ensures HalfSet({k1, k2, k3}, m, true) == {Half(m, k1, true), Half(m, k2, true), Half(m, k3, true)}
  {
  }

  /** The inner edges of a split face are the keys of two of its midpoints,
      those of the edges child `j` uses, for some corner child `j`. */
  lemma InnerShape(t: Tri, m: Cache, x: Edge) returns (j: nat)
    requires x in Inner(t, m)
    ensures j < 3
    ensures x == EdgeKey(MidOf(m, ChildMids(t, j).0), MidOf(m, ChildMids(t, j).1))
  {
    var ab, bc, ca := Mid(m, t.a, t.b), Mid(m, t.b, t.c), Mid(m, t.c, t.a);
    if x == EdgeKey(ab, ca) {
      j := 0;
    } else if x == EdgeKey(bc, ab) {
      j := 1;
    } else {
      j := 2;
    }
  }

  lemma InnerThree(t: Tri, n0: nat, m: Cache)
    requires Splittable(t, n0, m)
    ensures |Inner(t, m)| == 3
  {
    MidsFresh(t, n0, m);
    var ab, bc, ca := Mid(m, t.a, t.b), Mid(m, t.b, t.c), Mid(m, t.c, t.a);
    ThreeEdges(Tri(ab, ca, bc));
  }

  /** Faces on different corners have no inner edge in common. */
  lemma InnerApart(s: Tri, t: Tri, n0: nat, m: Cache)
    requires Splittable(s, n0, m) && Splittable(t, n0, m)
    requires !SameCorners(s, t)
    ensures Inner(s, m) * Inner(t, m) == {}
  {
    if x :| x in Inner(s, m) && x in Inner(t, m) {
      var i := InnerShape(s, m, x);
      var j := InnerShape(t, m, x);
      ChildMidsOf(s, m, i);
      ChildMidsOf(t, m, j);
      var (d1, d2) := ChildMids(s, i);
      var (e1, e2) := ChildMids(t, j);
      SameKeySameEdges(m, n0, d1, d2, e1, e2);
      SharedEdgesSameCorners(s, t, d1, d2);
    }
  }

  /** Two midpoint pairs with the same key come from the same pair of
      edges. */
  lemma SameKeySameEdges(m: Cache, n0: nat, d1: Edge, d2: Edge, e1: Edge, e2: Edge)
    requires FreshInjective(m, n0)
    requires d1 in m && d2 in m && e1 in m && e2 in m
    requires EdgeKey(MidOf(m, d1), MidOf(m, d2)) == EdgeKey(MidOf(m, e1), MidOf(m, e2))
    ensures d1 == e1 || d1 == e2
    ensures d2 == e1 || d2 == e2
  {
    EndsOfKey(MidOf(m, d1), MidOf(m, d2));
    EndsOfKey(MidOf(m, e1), MidOf(m, e2));
    assert {m[d1], m[d2]} == {m[e1], m[e2]};
    assert m[d1] in {m[e1], m[e2]};
    assert m[d2] in {m[e1], m[e2]};
  }

  // ------------------------------------------------------------ whole list

  function AllHalves(fs: seq<Tri>, m: Cache): set<Edge> {
    set k, e | 0 <= k < |fs| && e in Halves(fs[k], m) :: e
  }

  function AllInner(fs: seq<Tri>, m: Cache): set<Edge> {
    set k, e | 0 <= k < |fs| && e in Inner(fs[k], m) :: e
  }

  /** Every face of a list with a midpoint map satisfies the per-face
      assumptions. */
  lemma FacesSplittable(fs: seq<Tri>, n0: nat, m: Cache, k: nat)
    requires MidpointMap(fs, n0, m) && AllNonDegenerate(fs)
    requires k < |fs|
    ensures Splittable(fs[k], n0, m)
  {
    assert fs[k] in fs;
  }

  /** The edges of the refined list are the half edges and the inner edges
      of the split faces. */
  lemma RefineEdges(fs: seq<Tri>, m: Cache)
    ensures Edges(Refine(fs, m)) == AllHalves(fs, m) + AllInner(fs, m)
  {
    var r := Refine(fs, m);
    RefineLength(fs, m);
    forall e | e in Edges(r) ensures e in AllHalves(fs, m) + AllInner(fs, m) {
      var u :| u in r && e in FaceEdges(u);
      var i :| 0 <= i < |r| && r[i] == u;
      var k, j := i / 4, i % 4;
      RefineIndex(fs, m, k, j);
      assert i == 4 * k + j;
      var cs := Children(fs[k], m);
      assert cs[j] in cs;
      assert e in Edges(cs);
      ChildEdges(fs[k], m);
    }
    forall e | e in AllHalves(fs, m) + AllInner(fs, m) ensures e in Edges(r) {
      var k :| 0 <= k < |fs| && (e in Halves(fs[k], m) || e in Inner(fs[k], m));
      var cs := Children(fs[k], m);
      ChildEdges(fs[k], m);
      var u :| u in cs && e in FaceEdges(u);
      var j :| 0 <= j < 4 && cs[j] == u;
      RefineIndex(fs, m, k, j);
      assert r[4 * k + j] in r;
    }
  }

  /** The half edges of all split faces are the low and high halves of the
      old edges. */
  lemma AllHalvesSplit(fs: seq<Tri>, n0: nat, m: Cache)
    requires MidpointMap(fs, n0, m) && AllNonDegenerate(fs)
    ensures AllHalves(fs, m) == HalfSet(Edges(fs), m, false) + HalfSet(Edges(fs), m, true)
  {
    forall e | e in AllHalves(fs, m)
      ensures e in HalfSet(Edges(fs), m, false) + HalfSet(Edges(fs), m, true)
    {
      var k :| 0 <= k < |fs| && e in Halves(fs[k], m);
      HalfIsHalf(fs, n0, m, k, e);
    }
    forall e | e in HalfSet(Edges(fs), m, false) + HalfSet(Edges(fs), m, true)
      ensures e in AllHalves(fs, m)
    {
      var d, upper :| d in Edges(fs) && e == Half(m, d, upper);
      HalfFromEdge(fs, n0, m, d, upper);
    }
  }

  lemma HalfFromEdge(fs: seq<Tri>, n0: nat, m: Cache, d: Edge, upper: bool)
    requires MidpointMap(fs, n0, m) && AllNonDegenerate(fs)
    requires d in Edges(fs)
    ensures Half(m, d, upper) in AllHalves(fs, m)
  {
    var t :| t in fs && d in FaceEdges(t);
    var k :| 0 <= k < |fs| && fs[k] == t;
    FacesSplittable(fs, n0, m, k);
    HalvesSplit(t, n0, m);
    assert Half(m, d, upper) in HalfSet(FaceEdges(t), m, upper);
    assert Half(m, d, upper) in Halves(fs[k], m);
  }

  lemma HalfIsHalf(fs: seq<Tri>, n0: nat, m: Cache, k: nat, e: Edge)
    requires MidpointMap(fs, n0, m) && AllNonDegenerate(fs)
    requires k < |fs| && e in Halves(fs[k], m)
    ensures e in HalfSet(Edges(fs), m, false) + HalfSet(Edges(fs), m, true)
  {
    var t := fs[k];
    FacesSplittable(fs, n0, m, k);
    HalvesSplit(t, n0, m);
    assert t in fs;
    if e in HalfSet(FaceEdges(t), m, false) {
      var d :| d in FaceEdges(t) && e == Half(m, d, false);
      assert d in Edges(fs);
    } else {
      var d :| d in FaceEdges(t) && e == Half(m, d, true);
      assert d in Edges(fs);
    }
  }

  /** Different edges have different low halves, and different high
      halves. */
  lemma HalvesCount(es: set<Edge>, n0: nat, m: Cache)
    requires es <= m.Keys && FreshInjective(m, n0)
    ensures |HalfSet(es, m, false)| == |es|
    ensures |HalfSet(es, m, true)| == |es|
  {
    HalfSetCount(es, n0, m, false);
    HalfSetCount(es, n0, m, true);
  }

  lemma {:induction false} HalfSetCount(es: set<Edge>, n0: nat, m: Cache, upper: bool)
    requires es <= m.Keys && FreshInjective(m, n0)
    ensures |HalfSet(es, m, upper)| == |es|
  {
    if es != {} {
      var x :| x in es;
      var rest := es - {x};
      HalfSetCount(rest, n0, m, upper);
      assert HalfSet(es, m, upper) == HalfSet(rest, m, upper) + {Half(m, x, upper)};
    }
  }

  /** No low half is a high half: that would need an edge whose ends
      coincide. */
  lemma HalvesApart(fs: seq<Tri>, n0: nat, m: Cache)
    requires MidpointMap(fs, n0, m) && AllNonDegenerate(fs)
    ensures HalfSet(Edges(fs), m, false) * HalfSet(Edges(fs), m, true) == {}
  {
    var es := Edges(fs);
    forall x | x in HalfSet(es, m, false) ensures x !in HalfSet(es, m, true) {
      var d :| d in es && x == Half(m, d, false);
      EdgeEndsBelow(fs, n0, d);
    }
  }

  /** Inner edges join two midpoints, half edges an old vertex to a
      midpoint. */
  lemma InnerNotHalf(fs: seq<Tri>, n0: nat, m: Cache)
    requires MidpointMap(fs, n0, m) && AllNonDegenerate(fs)
    ensures AllInner(fs, m) * (HalfSet(Edges(fs), m, false) + HalfSet(Edges(fs), m, true)) == {}
  {
    forall x | x in AllInner(fs, m) ensures n0 <= x.lo {
      var k :| 0 <= k < |fs| && x in Inner(fs[k], m);
      FacesSplittable(fs, n0, m, k);
      InnerAboveOld(fs[k], n0, m, x);
    }
    forall x | x in HalfSet(Edges(fs), m, false) + HalfSet(Edges(fs), m, true) ensures x.lo < n0 {
      var d, upper :| d in Edges(fs) && x == Half(m, d, upper);
      EdgeEndsBelow(fs, n0, d);
    }
  }

  lemma InnerAboveOld(t: Tri, n0: nat, m: Cache, x: Edge)
    requires Splittable(t, n0, m)
    requires x in Inner(t, m)
    ensures n0 <= x.lo
  {
    MidsFresh(t, n0, m);
    var ab, bc, ca := Mid(m, t.a, t.b), Mid(m, t.b, t.c), Mid(m, t.c, t.a);
    EndsOfKey(ab, ca);
    EndsOfKey(bc, ab);
    EndsOfKey(ca, bc);
  }

  /** The inner edges of a list are those of all but its last face plus
      those of the last face. */
  lemma AllInnerSnoc(fs: seq<Tri>, m: Cache)
    requires |fs| > 0
    ensures AllInner(fs, m) == AllInner(fs[..|fs| - 1], m) + Inner(fs[|fs| - 1], m)
  {
    var init := fs[..|fs| - 1];
    forall e | e in AllInner(fs, m) ensures e in AllInner(init, m) + Inner(fs[|fs| - 1], m) {
      var k :| 0 <= k < |fs| && e in Inner(fs[k], m);
      if k < |init| {
        assert e in Inner(init[k], m);
      }
    }
    forall e | e in AllInner(init, m) ensures e in AllInner(fs, m) {
      var k :| 0 <= k < |init| && e in Inner(init[k], m);
      assert e in Inner(fs[k], m);
    }
  }

  /** The last face of a list without repeated faces shares no inner edge
      with the faces before it. */
  lemma LastInnerApart(fs: seq<Tri>, n0: nat, m: Cache)
    requires |fs| > 0
    requires forall k | 0 <= k < |fs| :: Splittable(fs[k], n0, m)
    requires NoRepeatedFace(fs)
    ensures AllInner(fs[..|fs| - 1], m) * Inner(fs[|fs| - 1], m) == {}
  {
    var init, last := fs[..|fs| - 1], fs[|fs| - 1];
    forall e | e in AllInner(init, m) ensures e !in Inner(last, m) {
      var k :| 0 <= k < |init| && e in Inner(init[k], m);
      assert init[k] == fs[k];
      assert !SameCorners(fs[k], fs[|fs| - 1]);
      InnerApart(fs[k], last, n0, m);
    }
  }

  /** Each face contributes three inner edges of its own. */
  lemma {:induction false} InnerCount(fs: seq<Tri>, n0: nat, m: Cache)
    requires forall k | 0 <= k < |fs| :: Splittable(fs[k], n0, m)
    requires NoRepeatedFace(fs)
    ensures |AllInner(fs, m)| == 3 * |fs|
  {
    if |fs| > 0 {
      var init, last := fs[..|fs| - 1], fs[|fs| - 1];
      assert forall k | 0 <= k < |init| :: init[k] == fs[k];
      InnerCount(init, n0, m);
      AllInnerSnoc(fs, m);
      LastInnerApart(fs, n0, m);
      InnerThree(last, n0, m);
    }
  }

  /** The counting theorem: splitting every face of a proper face list into
      four gives twice the old edges (each cut in two) plus three new inner
      edges per face. */
  lemma RefineEdgeCount(fs: seq<Tri>, n0: nat, m: Cache)
    requires MidpointMap(fs, n0, m)
    requires AllNonDegenerate(fs) && NoRepeatedFace(fs)
    ensures |Edges(Refine(fs, m))| == 2 * |Edges(fs)| + 3 * |fs|
  {
    RefineEdges(fs, m);
    AllHalvesSplit(fs, n0, m);
    HalvesCount(Edges(fs), n0, m);
    HalvesApart(fs, n0, m);
    InnerNotHalf(fs, n0, m);
    forall k | 0 <= k < |fs| ensures Splittable(fs[k], n0, m) {
      FacesSplittable(fs, n0, m, k);
    }
    InnerCount(fs, n0, m);
    DisjointThree(HalfSet(Edges(fs), m, false), HalfSet(Edges(fs), m, true), AllInner(fs, m));
  }

  lemma DisjointThree<A>(a: set<A>, b: set<A>, c: set<A>)
    requires a * b == {} && c * (a + b) == {}
    ensures |a + b + c| == |a| + |b| + |c|
  {
    assert |a + b| == |a| + |b|;
    assert (a + b) * c == c * (a + b);
  }

  /** Refining keeps the faces proper and pairwise on different corners. */
  lemma RefineProper(fs: seq<Tri>, n0: nat, m: Cache)
    requires MidpointMap(fs, n0, m)
    requires AllNonDegenerate(fs) && NoRepeatedFace(fs)
    ensures AllNonDegenerate(Refine(fs, m))
    ensures NoRepeatedFace(Refine(fs, m))
  {
    var r := Refine(fs, m);
    RefineLength(fs, m);
    forall i | 0 <= i < |r| ensures NonDegenerate(r[i]) {
      RefinedFaceProper(fs, n0, m, i);
    }
    forall i, i' | 0 <= i < |r| && 0 <= i' < |r| && i != i' ensures !SameCorners(r[i], r[i']) {
      RefinedFacesApart(fs, n0, m, i, i');
    }
  }

  lemma RefinedFaceProper(fs: seq<Tri>, n0: nat, m: Cache, i: nat)
    requires MidpointMap(fs, n0, m) && AllNonDegenerate(fs)
    requires i < 4 * |fs|
    ensures |Refine(fs, m)| == 4 * |fs|
    ensures NonDegenerate(Refine(fs, m)[i])
  {
    var k, j := i / 4, i % 4;
    RefineIndex(fs, m, k, j);
    assert i == 4 * k + j;
    FacesSplittable(fs, n0, m, k);
    ChildrenProper(fs[k], n0, m);
  }

  lemma RefinedFacesApart(fs: seq<Tri>, n0: nat, m: Cache, i: nat, i': nat)
    requires MidpointMap(fs, n0, m)
    requires AllNonDegenerate(fs) && NoRepeatedFace(fs)
    requires i < 4 * |fs| && i' < 4 * |fs| && i != i'
    ensures |Refine(fs, m)| == 4 * |fs|
    ensures !SameCorners(Refine(fs, m)[i], Refine(fs, m)[i'])
  {
    var k, j := i / 4, i % 4;
    var k', j' := i' / 4, i' % 4;
    assert i == 4 * k + j && i' == 4 * k' + j';
    RefineIndex(fs, m, k, j);
    RefineIndex(fs, m, k', j');
    FacesSplittable(fs, n0, m, k);
    FacesSplittable(fs, n0, m, k');
    assert k != k' ==> !SameCorners(fs[k], fs[k']);
    CousinsApart(fs[k], fs[k'], n0, m, j, j');
  }

  /** Two children of faces at different positions, or two different
      children of one face, are on different corners. */
  lemma CousinsApart(s: Tri, t: Tri, n0: nat, m: Cache, i: nat, j: nat)
    requires Splittable(s, n0, m) && Splittable(t, n0, m)
    requires i < 4 && j < 4
    requires s == t ==> i != j
    requires s != t ==> !SameCorners(s, t)
    ensures !SameCorners(Children(s, m)[i], Children(t, m)[j])
  {
    if s == t {
      SiblingsApart(s, n0, m, i, j);
    } else {
      ChildrenApart(s, t, n0, m, i, j);
    }
  }

  lemma SiblingsApart(t: Tri, n0: nat, m: Cache, j: nat, j': nat)
    requires Splittable(t, n0, m)
    requires j < 4 && j' < 4 && j != j'
    ensures !SameCorners(Children(t, m)[j], Children(t, m)[j'])
  {
    ChildrenProper(t, n0, m);
    var cs := Children(t, m);
    assert |cs| == 4;
  }
}

=== FILE: sphere.dfy ===
/** The sphere builder: a unit icosahedron refined by repeated midpoint
    subdivision, each pass sharing the midpoint of an edge between the two
    faces on either side of it through a per-pass cache, and finally
    stretched to the part's size. */
module Sphere {
  import opened Numeric
  import opened MeshBase
  import opened Refinement

  // ------------------------------------------------------------ icosahedron

  /** The golden ratio, as computed with the supplied square root. */
  function Golden(lib: FloatLib): real {
    (1.0 + lib.sqrt(5.0)) / 2.0
  }

  /** The twelve icosahedron corners before normalisation. */
  function IcosahedronCorners(t: real): seq<Vec3> {
    [Vec3(-1.0, t, 0.0), Vec3(1.0, t, 0.0), Vec3(-1.0, -t, 0.0), Vec3(1.0, -t, 0.0),
     Vec3(0.0, -1.0, t), Vec3(0.0, 1.0, t), Vec3(0.0, -1.0, -t), Vec3(0.0, 1.0, -t),
     Vec3(t, 0.0, -1.0), Vec3(t, 0.0, 1.0), Vec3(-t, 0.0, -1.0), Vec3(-t, 0.0, 1.0)]
  }

  /** Face `k` of the icosahedron. */
  function IcosahedronFace(k: nat): Tri
    requires k < 20
  {
    if k == 0 then Tri(0, 11, 5)
    else if k == 1 then Tri(0, 5, 1)
    else if k == 2 then Tri(0, 1, 7)
    else if k == 3 then Tri(0, 7, 10)
    else if k == 4 then Tri(0, 10, 11)
    else if k == 5 then Tri(1, 5, 9)
    else if k == 6 then Tri(5, 11, 4)
    else if k == 7 then Tri(11, 10, 2)
    else if k == 8 then Tri(10, 7, 6)
    else if k == 9 then Tri(7, 1, 8)
    else if k == 10 then Tri(3, 9, 4)
    else if k == 11 then Tri(3, 4, 2)
    else if k == 12 then Tri(3, 2, 6)
    else if k == 13 then Tri(3, 6, 8)
    else if k == 14 then Tri(3, 8, 9)
    else if k == 15 then Tri(4, 9, 5)
    else if k == 16 then Tri(2, 4, 11)
    else if k == 17 then Tri(6, 2, 10)
    else if k == 18 then Tri(8, 6, 7)
    else Tri(9, 8, 1)
  }

  function IcosahedronFaces(): seq<Tri> {
    seq(20, k requires 0 <= k < 20 => IcosahedronFace(k))
  }

  /** Edge `p` of the icosahedron, in ascending order. */
  function IcosahedronEdge(k: nat): Edge
    requires k < 30
  {
    if k == 0 then Edge(0, 1)
    else if k == 1 then Edge(0, 5)
    else if k == 2 then Edge(0, 7)
    else if k == 3 then Edge(0, 10)
    else if k == 4 then Edge(0, 11)
    else if k == 5 then Edge(1, 5)
    else if k == 6 then Edge(1, 7)
    else if k == 7 then Edge(1, 8)
    else if k == 8 then Edge(1, 9)
    else if k == 9 then Edge(2, 3)
    else if k == 10 then Edge(2, 4)
    else if k == 11 then Edge(2, 6)
    else if k == 12 then Edge(2, 10)
    else if k == 13 then Edge(2, 11)
    else if k == 14 then Edge(3, 4)
    else if k == 15 then Edge(3, 6)
    else if k == 16 then Edge(3, 8)
    else if k == 17 then Edge(3, 9)
    else if k == 18 then Edge(4, 5)
    else if k == 19 then Edge(4, 9)
    else if k == 20 then Edge(4, 11)
    else if k == 21 then Edge(5, 9)
    else if k == 22 then Edge(5, 11)
    else if k == 23 then Edge(6, 7)
    else if k == 24 then Edge(6, 8)
    else if k == 25 then Edge(6, 10)
    else if k == 26 then Edge(7, 8)
    else if k == 27 then Edge(7, 10)
    else if k == 28 then Edge(8, 9)
    else Edge(10, 11)
  }

  function IcosahedronEdges(): seq<Edge> {
    seq(30, p requires 0 <= p < 30 => IcosahedronEdge(p))
  }

  /** Where the three edges of face `k` sit among the listed edges. */
  function IcosahedronPosition(k: nat): (nat, nat, nat)
    requires k < 20
  {
    if k == 0 then (4, 22, 1)
    else if k == 1 then (1, 5, 0)
    else if k == 2 then (0, 6, 2)
    else if k == 3 then (2, 27, 3)
    else if k == 4 then (3, 29, 4)
    else if k == 5 then (5, 21, 8)
    else if k == 6 then (22, 20, 18)
    else if k == 7 then (29, 12, 13)
    else if k == 8 then (27, 23, 25)
    else if k == 9 then (6, 7, 26)
    else if k == 10 then (17, 19, 14)
    else if k == 11 then (14, 10, 9)
    else if k == 12 then (9, 11, 15)
    else if k == 13 then (15, 24, 16)
    else if k == 14 then (16, 28, 17)
    else if k == 15 then (19, 21, 18)
    else if k == 16 then (10, 20, 13)
    else if k == 17 then (11, 12, 25)
    else if k == 18 then (24, 23, 26)
    else (28, 7, 8)
  }

  function IcosahedronPositions(): seq<(nat, nat, nat)> {
    seq(20, k requires 0 <= k < 20 => IcosahedronPosition(k))
  }

  /** A face that uses edge `p`. */
  function IcosahedronWitness(k: nat): nat
    requires k < 30
  {
    if k == 0 then 1
    else if k == 1 then 0
    else if k == 2 then 2
    else if k == 3 then 3
    else if k == 4 then 0
    else if k == 5 then 1
    else if k == 6 then 2
    else if k == 7 then 9
    else if k == 8 then 5
    else if k == 9 then 11
    else if k == 10 then 11
    else if k == 11 then 12
    else if k == 12 then 7
    else if k == 13 then 7
    else if k == 14 then 10
    else if k == 15 then 12
    else if k == 16 then 13
    else if k == 17 then 10
    else if k == 18 then 6
    else if k == 19 then 10
    else if k == 20 then 6
    else if k == 21 then 5
    else if k == 22 then 0
    else if k == 23 then 8
    else if k == 24 then 13
    else if k == 25 then 8
    else if k == 26 then 9
    else if k == 27 then 3
    else if k == 28 then 14
    else 4
  }

  function IcosahedronWitnesses(): seq<nat> {
    seq(30, p requires 0 <= p < 30 => IcosahedronWitness(p))
  }

  /** The starting solid: 12 corners on the unit sphere, 20 faces. */
  function Icosahedron(lib: FloatLib): (m: Mesh)
    ensures |m.vertices| == 12 && |m.faces| == 20
    ensures WellIndexed(m) && AllNonDegenerate(m.faces) && NoRepeatedFace(m.faces)
    ensures |Edges(m.faces)| == 30
    ensures forall i | 0 <= i < 12 ::
      m.vertices[i] == lib.normalize(IcosahedronCorners(Golden(lib))[i])
  {
    var corners := IcosahedronCorners(Golden(lib));
    IcosahedronTable();
    Mesh(seq(12, i requires 0 <= i < 12 => lib.normalize(corners[i])), IcosahedronFaces())
  }

  lemma IcosahedronTable()
    ensures IndexedBelow(IcosahedronFaces(), 12) && AllNonDegenerate(IcosahedronFaces())
    ensures NoRepeatedFace(IcosahedronFaces())
    ensures |Edges(IcosahedronFaces())| == 30
  {
    IcosahedronProper();
    IcosahedronNoRepeat();
    IcosahedronEdgesListed();
    IcosahedronEdgesUsed();
    IcosahedronEdgesAscending();
    CountFromList(IcosahedronFaces(), IcosahedronEdges(), IcosahedronPositions(), IcosahedronWitnesses());
  }

  lemma IcosahedronProper()
    ensures IndexedBelow(IcosahedronFaces(), 12) && AllNonDegenerate(IcosahedronFaces())
  {
    forall k | 0 <= k < 20 ensures InRange(IcosahedronFace(k), 12) && NonDegenerate(IcosahedronFace(k)) {
      SmallIndex(k);
    }
  }

  lemma IcosahedronNoRepeat()
    ensures NoRepeatedFace(IcosahedronFaces())
  {
    forall i, j | 0 <= i < 20 && 0 <= j < 20 && i != j
      ensures !SameCorners(IcosahedronFace(i), IcosahedronFace(j))
    {
      SmallIndex(i);
      SmallIndex(j);
    }
  }

  lemma IcosahedronEdgesListed()
    ensures ListedAt(IcosahedronFaces(), IcosahedronEdges(), IcosahedronPositions())
  {
    forall k | 0 <= k < 20
      ensures var (p, q, r) := IcosahedronPosition(k);
        var t := IcosahedronFace(k);
        && p < 30 && q < 30 && r < 30
        && IcosahedronEdge(p) == EdgeKey(t.a, t.b)
        && IcosahedronEdge(q) == EdgeKey(t.b, t.c)
        && IcosahedronEdge(r) == EdgeKey(t.c, t.a)
    {
      SmallIndex(k);
    }
  }

  lemma IcosahedronEdgesUsed()
    ensures WitnessedBy(IcosahedronFaces(), IcosahedronEdges(), IcosahedronWitnesses())
  {
    forall p | 0 <= p < 30
      ensures IcosahedronWitness(p) < 20
      ensures IcosahedronEdge(p) in FaceEdges(IcosahedronFace(IcosahedronWitness(p)))
    {
      SmallIndex(p);
    }
  }

  lemma IcosahedronEdgesAscending()
    ensures StrictlyAscending(IcosahedronEdges())
  {
    forall p | 0 <= p < 29 ensures EdgeBefore(IcosahedronEdge(p), IcosahedronEdge(p + 1)) {
      SmallIndex(p);
    }
  }

  // ------------------------------------------------------------ one pass

  /** The point halfway between two vertices, before normalisation. */
  function Midpoint(u: Vec3, v: Vec3): Vec3 {
    Vec3((u.x + v.x) / 2.0, (u.y + v.y) / 2.0, (u.z + v.z) / 2.0)
  }

  lemma MidpointSymmetric(u: Vec3, v: Vec3)
    ensures Midpoint(u, v) == Midpoint(v, u)
  {
  }

  /** What a midpoint lookup returns: the index of the midpoint vertex and the
      vertex list and cache after the lookup. */
  datatype Lookup = Lookup(index: nat, vertices: seq<Vec3>, cache: Cache)

  /** The midpoint vertex of the edge between `a` and `b`: the cached one when
      this pass already made it, otherwise a new normalised vertex appended
      to the list and recorded in the cache. */
  function GetMidpoint(lib: FloatLib, a: nat, b: nat, vertices: seq<Vec3>, cache: Cache): (r: Lookup)
    requires a < |vertices| && b < |vertices|
    ensures EdgeKey(a, b) in r.cache && r.cache[EdgeKey(a, b)] == r.index
    ensures r.cache.Keys == cache.Keys + {EdgeKey(a, b)}
    ensures forall e | e in cache :: r.cache[e] == cache[e]
    ensures |vertices| <= |r.vertices| && r.vertices[..|vertices|] == vertices
    ensures EdgeKey(a, b) in cache ==> r.vertices == vertices
    ensures EdgeKey(a, b) !in cache ==>
      && r.index == |vertices| && |r.vertices| == |vertices| + 1
      && r.vertices[r.index] == lib.normalize(Midpoint(vertices[a], vertices[b]))
  {
    var key := EdgeKey(a, b);
    if key in cache then
      Lookup(cache[key], vertices, cache)
    else
      var idx := |vertices|;
      Lookup(idx, vertices + [lib.normalize(Midpoint(vertices[a], vertices[b]))], cache[key := idx])
  }

  /** The lookup does not depend on the order of the two ends. */
  lemma GetMidpointSymmetric(lib: FloatLib, a: nat, b: nat, vertices: seq<Vec3>, cache: Cache)
    requires a < |vertices| && b < |vertices|
    ensures GetMidpoint(lib, a, b, vertices, cache) == GetMidpoint(lib, b, a, vertices, cache)
  {
    EdgeKeySymmetric(a, b);
    MidpointSymmetric(vertices[a], vertices[b]);
  }

  /** Asking again for the same edge, from either end, returns the vertex the
      first lookup made and changes nothing. */
  lemma GetMidpointCached(lib: FloatLib, a: nat, b: nat, vertices: seq<Vec3>, cache: Cache)
    requires a < |vertices| && b < |vertices|
    ensures var r := GetMidpoint(lib, a, b, vertices, cache);
      && GetMidpoint(lib, a, b, r.vertices, r.cache) == r
      && GetMidpoint(lib, b, a, r.vertices, r.cache) == r
  {
    var r := GetMidpoint(lib, a, b, vertices, cache);
    EdgeKeySymmetric(a, b);
  }

  /** The state of a pass: the growing vertex list, the new faces so far and
      the midpoint cache. */
  datatype Pass = Pass(vertices: seq<Vec3>, faces: seq<Tri>, cache: Cache)

  /** What holds of the cache throughout a pass over faces indexing the
      `base` vertices: the base is untouched, one vertex was appended per
      cached edge, and the vertex cached for an edge is its normalised
      midpoint; different edges have different midpoint vertices. */
  ghost predicate CacheInv(lib: FloatLib, base: seq<Vec3>, vertices: seq<Vec3>, cache: Cache) {
    && |base| <= |vertices| && vertices[..|base|] == base
    && |vertices| == |base| + |cache|
    && (forall e | e in cache :: e.lo <= e.hi < |base|)
    && (forall e | e in cache :: |base| <= cache[e] < |vertices|)
    && (forall e | e in cache :: vertices[cache[e]] == lib.normalize(Midpoint(base[e.lo], base[e.hi])))
    && (forall d, e | d in cache && e in cache && cache[d] == cache[e] :: d == e)
  }

  lemma GetMidpointInv(lib: FloatLib, base: seq<Vec3>, a: nat, b: nat, vertices: seq<Vec3>, cache: Cache)
    requires CacheInv(lib, base, vertices, cache)
    requires a < |base| && b < |base|
    ensures var r := GetMidpoint(lib, a, b, vertices, cache);
      CacheInv(lib, base, r.vertices, r.cache)
  {
    var key := EdgeKey(a, b);
    if key !in cache {
      EndsOfKey(a, b);
      assert vertices[a] == base[a] && vertices[b] == base[b];
      MidpointSymmetric(base[a], base[b]);
      var v := lib.normalize(Midpoint(vertices[a], vertices[b]));
      assert v == lib.normalize(Midpoint(base[key.lo], base[key.hi]));
      AppendInv(lib, base, vertices, cache, key, v);
    }
  }

  /** Recording a new edge with its midpoint appended keeps the invariant. */
  lemma AppendInv(lib: FloatLib, base: seq<Vec3>, vertices: seq<Vec3>, cache: Cache, key: Edge, v: Vec3)
    requires CacheInv(lib, base, vertices, cache)
    requires key !in cache && key.lo <= key.hi < |base|
    requires v == lib.normalize(Midpoint(base[key.lo], base[key.hi]))
    ensures CacheInv(lib, base, vertices + [v], cache[key := |vertices|])
  {
    AppendKeepsBase(lib, base, vertices, cache, key, v);
    AppendPlaces(lib, base, vertices, cache, key, v);
    AppendInjective(lib, base, vertices, cache, key);
  }

  lemma AppendKeepsBase(lib: FloatLib, base: seq<Vec3>, vertices: seq<Vec3>, cache: Cache, key: Edge, v: Vec3)
    requires CacheInv(lib, base, vertices, cache)
    requires key !in cache
    ensures var vs, c := vertices + [v], cache[key := |vertices|];
      && |base| <= |vs| && vs[..|base|] == base && |vs| == |base| + |c|
  {
    var vs, c := vertices + [v], cache[key := |vertices|];
    assert vs[..|base|] == vertices[..|base|];
    assert c.Keys == cache.Keys + {key};
  }

  lemma AppendPlaces(lib: FloatLib, base: seq<Vec3>, vertices: seq<Vec3>, cache: Cache, key: Edge, v: Vec3)
    requires CacheInv(lib, base, vertices, cache)
    requires key.lo <= key.hi < |base|
    requires v == lib.normalize(Midpoint(base[key.lo], base[key.hi]))
    ensures var vs, c := vertices + [v], cache[key := |vertices|];
      forall e | e in c ::
        && e.lo <= e.hi < |base| && |base| <= c[e] < |vs|
        && vs[c[e]] == lib.normalize(Midpoint(base[e.lo], base[e.hi]))
  {
    var vs, c := vertices + [v], cache[key := |vertices|];
    forall e | e in c
      ensures && e.lo <= e.hi < |base| && |base| <= c[e] < |vs|
              && vs[c[e]] == lib.normalize(Midpoint(base[e.lo], base[e.hi]))
    {
      if e != key {
        assert vs[cache[e]] == vertices[cache[e]];
      }
    }
  }

  lemma AppendInjective(lib: FloatLib, base: seq<Vec3>, vertices: seq<Vec3>, cache: Cache, key: Edge)
    requires CacheInv(lib, base, vertices, cache)
    ensures var c := cache[key := |vertices|];
      forall d, e | d in c && e in c && c[d] == c[e] :: d == e
  {
    var c := cache[key := |vertices|];
    forall d, e | d in c && e in c && c[d] == c[e] ensures d == e {
      if d != key && e != key {
        assert cache[d] == cache[e];
      }
    }
  }

  /** One face of a pass: look up the midpoints of its edges a-b, b-c and c-a
      in that order, then emit its four children. */
  function SplitFace(lib: FloatLib, st: Pass, t: Tri): (r: Pass)
    requires InRange(t, |st.vertices|)
    ensures r.cache.Keys == st.cache.Keys + FaceEdges(t)
    ensures r.faces == st.faces + Children(t, r.cache)
  {
    var ab := GetMidpoint(lib, t.a, t.b, st.vertices, st.cache);
    var bc := GetMidpoint(lib, t.b, t.c, ab.vertices, ab.cache);
    var ca := GetMidpoint(lib, t.c, t.a, bc.vertices, bc.cache);
    LookupsChain(st.vertices, st.cache, ab, bc, ca);
    Pass(ca.vertices,
         st.faces + [Tri(t.a, ab.index, ca.index), Tri(t.b, bc.index, ab.index),
                     Tri(t.c, ca.index, bc.index), Tri(ab.index, bc.index, ca.index)],
         ca.cache)
  }

  /** Three lookups in a row: each keeps what the previous ones recorded. */
  lemma LookupsChain(vs: seq<Vec3>, cache: Cache, ab: Lookup, bc: Lookup, ca: Lookup)
    requires |vs| <= |ab.vertices| && ab.vertices[..|vs|] == vs
    requires |ab.vertices| <= |bc.vertices| && bc.vertices[..|ab.vertices|] == ab.vertices
    requires |bc.vertices| <= |ca.vertices| && ca.vertices[..|bc.vertices|] == bc.vertices
    requires forall e | e in cache :: e in ab.cache && ab.cache[e] == cache[e]
    requires forall e | e in ab.cache :: e in bc.cache && bc.cache[e] == ab.cache[e]
    requires forall e | e in bc.cache :: e in ca.cache && ca.cache[e] == bc.cache[e]
    ensures |vs| <= |ca.vertices| && ca.vertices[..|vs|] == vs
    ensures forall e | e in cache :: e in ca.cache && ca.cache[e] == cache[e]
    ensures forall e | e in ab.cache :: e in ca.cache && ca.cache[e] == ab.cache[e]
  {
    assert ca.vertices[..|vs|] == bc.vertices[..|ab.vertices|][..|vs|];
  }

  /** Splitting a face keeps every earlier cache entry and vertex. */
  lemma SplitFaceKeeps(lib: FloatLib, st: Pass, t: Tri)
    requires InRange(t, |st.vertices|)
    ensures var r := SplitFace(lib, st, t);
      && (forall e | e in st.cache :: r.cache[e] == st.cache[e])
      && |st.vertices| <= |r.vertices| && r.vertices[..|st.vertices|] == st.vertices
  {
    var ab := GetMidpoint(lib, t.a, t.b, st.vertices, st.cache);
    var bc := GetMidpoint(lib, t.b, t.c, ab.vertices, ab.cache);
    var ca := GetMidpoint(lib, t.c, t.a, bc.vertices, bc.cache);
    LookupsChain(st.vertices, st.cache, ab, bc, ca);
  }

  lemma SplitFaceInv(lib: FloatLib, base: seq<Vec3>, st: Pass, t: Tri)
    requires CacheInv(lib, base, st.vertices, st.cache)
    requires InRange(t, |base|)
    ensures CacheInv(lib, base, SplitFace(lib, st, t).vertices, SplitFace(lib, st, t).cache)
  {
    var ab := GetMidpoint(lib, t.a, t.b, st.vertices, st.cache);
    GetMidpointInv(lib, base, t.a, t.b, st.vertices, st.cache);
    var bc := GetMidpoint(lib, t.b, t.c, ab.vertices, ab.cache);
    GetMidpointInv(lib, base, t.b, t.c, ab.vertices, ab.cache);
    GetMidpointInv(lib, base, t.c, t.a, bc.vertices, bc.cache);
  }

  /** The pass after the first `k` faces: the cache holds exactly their
      edges, and the faces emitted so far are those faces refined with the
      cached midpoints. */
  function SubdividePrefix(lib: FloatLib, base: seq<Vec3>, faces: seq<Tri>, k: nat): (r: Pass)
    requires IndexedBelow(faces, |base|) && k <= |faces|
    ensures CacheInv(lib, base, r.vertices, r.cache)
    ensures r.cache.Keys == Edges(faces[..k])
    ensures r.faces == Refine(faces[..k], r.cache)
  {
    if k == 0 then
      Pass(base, [], map[])
    else
      var prev := SubdividePrefix(lib, base, faces, k - 1);
      SplitStep(lib, base, faces, k, prev);
      SplitFace(lib, prev, faces[k - 1])
  }

  lemma SplitStep(lib: FloatLib, base: seq<Vec3>, faces: seq<Tri>, k: nat, st: Pass)
    requires IndexedBelow(faces, |base|) && 0 < k <= |faces|
    requires CacheInv(lib, base, st.vertices, st.cache)
    requires st.cache.Keys == Edges(faces[..k - 1]) && st.faces == Refine(faces[..k - 1], st.cache)
    ensures InRange(faces[k - 1], |st.vertices|)
    ensures var r := SplitFace(lib, st, faces[k - 1]);
      && CacheInv(lib, base, r.vertices, r.cache)
      && r.cache.Keys == Edges(faces[..k])
      && r.faces == Refine(faces[..k], r.cache)
  {
    assert InRange(faces[k - 1], |base|);
    SplitFaceInv(lib, base, st, faces[k - 1]);
    SplitStepRefines(lib, faces, k, st);
  }

  /** Splitting the next face extends the cache to the edges of the longer
      prefix, and the faces to its refinement. */
  lemma SplitStepRefines(lib: FloatLib, faces: seq<Tri>, k: nat, st: Pass)
    requires 0 < k <= |faces| && InRange(faces[k - 1], |st.vertices|)
    requires st.cache.Keys == Edges(faces[..k - 1]) && st.faces == Refine(faces[..k - 1], st.cache)
    ensures var r := SplitFace(lib, st, faces[k - 1]);
      && r.cache.Keys == Edges(faces[..k])
      && r.faces == Refine(faces[..k], r.cache)
  {
    var done, t := faces[..k - 1], faces[k - 1];
    assert faces[..k] == done + [t];
    var r := SplitFace(lib, st, t);
    SplitFaceKeeps(lib, st, t);
    EdgesSnoc(done, t);
    RefineStable(done, st.cache, r.cache);
    RefineSnoc(done, t, r.cache);
  }

  /** The whole pass over a mesh's faces. */
  function PassOf(lib: FloatLib, m: Mesh): (p: Pass)
    requires WellIndexed(m)
    ensures CacheInv(lib, m.vertices, p.vertices, p.cache)
    ensures p.cache.Keys == Edges(m.faces)
    ensures p.faces == Refine(m.faces, p.cache)
  {
    assert m.faces[..|m.faces|] == m.faces;
    SubdividePrefix(lib, m.vertices, m.faces, |m.faces|)
  }

  /** One subdivision pass: every face split in four, one new vertex per
      edge, the old vertices kept in place. */
  function SubdivisionPass(lib: FloatLib, m: Mesh): (r: Mesh)
    requires WellIndexed(m)
    ensures |r.faces| == 4 * |m.faces|
    ensures |r.vertices| == |m.vertices| + |Edges(m.faces)|
    ensures |m.vertices| <= |r.vertices| && r.vertices[..|m.vertices|] == m.vertices
    ensures WellIndexed(r)
  {
    var p := PassOf(lib, m);
    RefineLength(m.faces, p.cache);
    RefineIndexed(m.faces, p.cache, |p.vertices|);
    Mesh(p.vertices, p.faces)
  }

  /** What the pass computes, cache aside: its faces are the old faces
      refined with a valid midpoint assignment, and the vertex of each edge's
      midpoint is the normalised midpoint of the edge's ends. */
  lemma PassRefines(lib: FloatLib, m: Mesh)
    requires WellIndexed(m)
    ensures var p := PassOf(lib, m);
      && MidpointMap(m.faces, |m.vertices|, p.cache)
      && SubdivisionPass(lib, m).faces == Refine(m.faces, p.cache)
      && forall e | e in Edges(m.faces) ::
           && e.lo <= e.hi < |m.vertices|
           && p.cache[e] < |SubdivisionPass(lib, m).vertices|
           && SubdivisionPass(lib, m).vertices[p.cache[e]]
              == lib.normalize(Midpoint(m.vertices[e.lo], m.vertices[e.hi]))
  {
  }

  /** The counting step: a pass over a proper closed-up face list turns E
      edges and F faces into 2E + 3F edges and 4F faces, still proper. */
  lemma PassCounts(lib: FloatLib, m: Mesh)
    requires WellIndexed(m) && AllNonDegenerate(m.faces) && NoRepeatedFace(m.faces)
    ensures var r := SubdivisionPass(lib, m);
      && |Edges(r.faces)| == 2 * |Edges(m.faces)| + 3 * |m.faces|
      && AllNonDegenerate(r.faces) && NoRepeatedFace(r.faces)
  {
    PassRefines(lib, m);
    var p := PassOf(lib, m);
    RefineEdgeCount(m.faces, |m.vertices|, p.cache);
    RefineProper(m.faces, |m.vertices|, p.cache);
  }

  // ------------------------------------------------------------ the sphere

  function Pow4(n: nat): nat {
    if n == 0 then 1 else 4 * Pow4(n - 1)
  }

  /** A face list with no degenerate and no repeated face. */
  ghost predicate Proper(fs: seq<Tri>) {
    AllNonDegenerate(fs) && NoRepeatedFace(fs)
  }

  /** V - E + F, which is 2 for a mesh of a sphere. */
  ghost function EulerCharacteristic(m: Mesh): int {
    |m.vertices| - |Edges(m.faces)| + |m.faces|
  }

  /** Three edges for every two faces: each edge lies on two triangles. */
  ghost predicate Balanced(m: Mesh) {
    2 * |Edges(m.faces)| == 3 * |m.faces|
  }

  /** What one pass keeps on a proper mesh: properness, the Euler
      characteristic, and the edge/face balance. */
  lemma PassKeeps(lib: FloatLib, m: Mesh)
    requires WellIndexed(m)
    ensures var r := SubdivisionPass(lib, m);
      Proper(m.faces) ==>
        && Proper(r.faces)
        && EulerCharacteristic(r) == EulerCharacteristic(m)
        && (Balanced(m) ==> Balanced(r))
  {
    if Proper(m.faces) {
      PassCounts(lib, m);
    }
  }

  /** `n` subdivision passes in a row. */
  function Subdivide(lib: FloatLib, m: Mesh, n: nat): (r: Mesh)
    requires WellIndexed(m)
    ensures WellIndexed(r)
    ensures |r.faces| == Pow4(n) * |m.faces|
    ensures |m.vertices| <= |r.vertices| && r.vertices[..|m.vertices|] == m.vertices
    ensures Proper(m.faces) ==> Proper(r.faces) && EulerCharacteristic(r) == EulerCharacteristic(m)
    ensures Proper(m.faces) && Balanced(m) ==> Balanced(r)
    decreases n
  {
    if n == 0 then m
    else
      var prev := Subdivide(lib, m, n - 1);
      var r := SubdivisionPass(lib, prev);
      PrefixChain(m.vertices, prev.vertices, r.vertices);
      Pow4Step(n, |m.faces|);
      PassKeeps(lib, prev);
      r
  }

  lemma PrefixChain<T>(a: seq<T>, b: seq<T>, c: seq<T>)
    requires |a| <= |b| && b[..|a|] == a
    requires |b| <= |c| && c[..|b|] == b
    ensures |a| <= |c| && c[..|a|] == a
  {
    assert c[..|a|] == c[..|b|][..|a|];
  }

  lemma Pow4Step(n: nat, q: nat)
    requires n > 0
    ensures 4 * (Pow4(n - 1) * q) == Pow4(n) * q
  {
    var p := Pow4(n - 1);
    assert 4 * (p * q) == (4 * p) * q;
  }

  /** Scales a unit-sphere point to the part's half-extents on each axis. */
  function Stretch(v: Vec3, size: Vec3): Vec3 {
    Vec3(v.x * (size.x / 2.0), v.y * (size.y / 2.0), v.z * (size.z / 2.0))
  }

  /** Stretches every vertex of a mesh to `size`, keeping the faces: the
      indices stay valid, and a part of size 2 on every axis keeps the unit
      mesh unchanged. */
  function StretchMesh(m: Mesh, size: Vec3): (r: Mesh)
    ensures r.faces == m.faces && |r.vertices| == |m.vertices|
    ensures forall i | 0 <= i < |r.vertices| :: r.vertices[i] == Stretch(m.vertices[i], size)
    ensures WellIndexed(m) ==> WellIndexed(r)
    ensures size == Vec3(2.0, 2.0, 2.0) ==> r == m
  {
    var r := Mesh(seq(|m.vertices|, i requires 0 <= i < |m.vertices| => Stretch(m.vertices[i], size)), m.faces);
    assert size == Vec3(2.0, 2.0, 2.0) ==> r.vertices == m.vertices by {
      if size == Vec3(2.0, 2.0, 2.0) {
        forall i | 0 <= i < |m.vertices| ensures r.vertices[i] == m.vertices[i] {
          StretchByTwo(m.vertices[i]);
        }
      }
    }
    r
  }

  lemma StretchByTwo(v: Vec3)
    ensures Stretch(v, Vec3(2.0, 2.0, 2.0)) == v
  {
  }

  /** The size that undoes a stretch to `size` on every axis. */
  function Unstretch(size: Vec3): Vec3
    requires size.x != 0.0 && size.y != 0.0 && size.z != 0.0
  {
    Vec3(4.0 / size.x, 4.0 / size.y, 4.0 / size.z)
  }

  lemma UnstretchVertex(v: Vec3, size: Vec3)
    requires size.x != 0.0 && size.y != 0.0 && size.z != 0.0
    ensures Stretch(Stretch(v, size), Unstretch(size)) == v
  {
    var u := Unstretch(size);
    assert (size.x / 2.0) * (u.x / 2.0) == 1.0;
    assert (size.y / 2.0) * (u.y / 2.0) == 1.0;
    assert (size.z / 2.0) * (u.z / 2.0) == 1.0;
  }

  /** Stretching is undone by stretching again with the reciprocal scale
      factors, whenever no axis of the size is zero. */
  lemma StretchRoundTrip(m: Mesh, size: Vec3)
    requires size.x != 0.0 && size.y != 0.0 && size.z != 0.0
    ensures StretchMesh(StretchMesh(m, size), Unstretch(size)) == m
  {
    var r := StretchMesh(StretchMesh(m, size), Unstretch(size));
    forall i | 0 <= i < |m.vertices| ensures r.vertices[i] == m.vertices[i] {
      UnstretchVertex(m.vertices[i], size);
    }
    assert r.vertices == m.vertices;
  }

  /** The sphere mesh: the icosahedron subdivided `subdivisions` times, then
      stretched to `size`. The counts are the closed forms of a subdivided
      icosahedron: F = 20 4^n, E = 30 4^n and V = 10 4^n + 2. */
  function SphereMesh(lib: FloatLib, size: Vec3, subdivisions: nat): (r: Mesh)
    ensures |r.faces| == 20 * Pow4(subdivisions)
    ensures |r.vertices| == 10 * Pow4(subdivisions) + 2
    ensures |Edges(r.faces)| == 30 * Pow4(subdivisions)
    ensures WellIndexed(r) && AllNonDegenerate(r.faces) && NoRepeatedFace(r.faces)
  {
    StretchMesh(Subdivide(lib, Icosahedron(lib), subdivisions), size)
  }

  /** The sphere keeps the shape of the unit sphere it stretches: same faces,
      each vertex scaled axis by axis. */
  lemma SphereStretchesUnit(lib: FloatLib, size: Vec3, subdivisions: nat)
    ensures var unit := Subdivide(lib, Icosahedron(lib), subdivisions);
      var r := SphereMesh(lib, size, subdivisions);
      && r.faces == unit.faces && |r.vertices| == |unit.vertices|
      && forall i | 0 <= i < |r.vertices| :: r.vertices[i] == Stretch(unit.vertices[i], size)
  {
  }

  /** The first twelve sphere vertices are the stretched icosahedron corners,
      whatever the number of passes. */
  lemma SphereCorners(lib: FloatLib, size: Vec3, subdivisions: nat)
    ensures var r := SphereMesh(lib, size, subdivisions);
      && |r.vertices| >= 12
      && forall i | 0 <= i < 12 ::
           r.vertices[i] == Stretch(lib.normalize(IcosahedronCorners(Golden(lib))[i]), size)
  {
    var ico := Icosahedron(lib);
    var unit := Subdivide(lib, ico, subdivisions);
    SphereStretchesUnit(lib, size, subdivisions);
    forall i | 0 <= i < 12 ensures unit.vertices[i] == ico.vertices[i] {
      assert unit.vertices[..12][i] == unit.vertices[i];
    }
  }

  /** The sizes of the spheres the converter builds: one pass gives 42
      vertices and 80 faces, two passes (what parts use) 162 and 320. */
  lemma SphereLevels(lib: FloatLib, size: Vec3)
    ensures |SphereMesh(lib, size, 0).vertices| == 12 && |SphereMesh(lib, size, 0).faces| == 20
    ensures |SphereMesh(lib, size, 1).vertices| == 42 && |SphereMesh(lib, size, 1).faces| == 80
    ensures |SphereMesh(lib, size, 2).vertices| == 162 && |SphereMesh(lib, size, 2).faces| == 320
    ensures |Edges(SphereMesh(lib, size, 2).faces)| == 480
  {
    assert Pow4(1) == 4 && Pow4(2) == 16;
  }
}
